=== FILE: README.md ===
# Workflow creation and secret sealing in the GitHub Actions extension for VS Code

This project models the core of the extension's workflow and secret support:

- how it turns a listing of the `actions/starter-workflows` repository into a catalog of
  starter templates, and caches that catalog;
- how it collects the workflow types other extensions declare;
- how it keeps the registry of workflow providers;
- how it chooses a provider: by an explicit type, or from a quick pick of grouped and
  sorted definitions;
- how it drives a provider through `createWorkflow` and the callbacks it hands over;
- how a secret is sealed and submitted to a repository.

Everything is immutable data and pure functions. The module-level variables of the
TypeScript code are explicit state that is passed in and returned:

- the starter definitions and the "registered" flag;
- the provider map;
- the catalog cache.

Foreign code and the editor's user interface enter as plain values or as function-typed
fields of a record (`StarterWorkflows.Remote`, `Secrets.Codec`, `Templates.Host`). These
cover:

- the hosting-service client;
- base64, UTF-8, `JSON.parse` and libsodium's sealed box;
- `getGitHubContext`, `activateExtensionForWorkflow` and `getCustomWorkflows`;
- the quick picks and the workspace folders.

The modules are:

- `Outcomes`: `Option`, `Result`, and JavaScript truthiness of a possibly undefined string.
- `Order`: the string order used for sorting, an insertion sort, and duplicate removal.
- `Paths`: POSIX paths as segment lists, for `path.dirname`, `path.join` and
  `path.basename`.
- `StarterWorkflows`: the starter catalog.
- `WorkflowContributors`: the contributor fold.
- `Secrets`: the byte and character bridges around base64, sealing, and `setSecret`.
- `ProviderRegistry`: `registerWorkflowProvider` and its disposable.
- `WorkflowPicker`: the grouped, sorted quick-pick list.
- `Templates`: ensuring the starter templates are registered, choosing a provider and a
  workspace folder, the starter provider, `createWorkflow`, and its two callbacks.

Behaviour of the TypeScript code a reader might not expect, which the model follows:

- Nothing guards the first fetch against a concurrent second call; both could fetch. The
  model is sequential.
- A failed fetch leaves the "registered" flag false, so a later call retries.
- A dismissed workflow quick pick is an error, not an empty result. `selectWorkflowProvider` yields
  `undefined`, and `createWorkflow` then throws "No workflow provider"
  (`src/workflow/templates.ts:169-171`).
- An unknown explicit type ends in that same error, not in "No template ... is registered".
  `getWorkflowProvider(type)` at `src/workflow/templates.ts:116` is not awaited, so the
  promise is always truthy and is returned. Its resolved value, possibly `undefined`,
  reaches the check at line 169. Line 122 is never reached.
- `createWorkflow` returns nothing rather than a list of created files. The file callback is
  `createWorkflowFromContent`, it overwrites existing files, and it reports success
  whenever both file-system calls succeed; it never reports a failure as a value.
- `registerWorkflowProvider` does not reserve starter template ids.
- Nothing is checked when a secret name collides with an existing secret.
- Before the starter templates have ever been registered (no GitHub context, or no
  repositories), `starterDefinitions` is undefined. `selectWorkflowProvider` then fails with
  a `TypeError`, with or without a type. The model names this error
  `StarterDefinitionsUndefined`.

## Model

| member | source | states |
|---|---|---|
| ProviderRegistry.Lookup | src/workflow/templates.ts:76 | a provider is found exactly for a registered type, and it is the registered provider (provider objects are always truthy, so the check at line 44 is a key test) |
| ProviderRegistry.Register | src/workflow/templates.ts:42-48 | a type that already has a provider throws and leaves the map unchanged; otherwise exactly that type is added with the given provider, every other lookup is unchanged, and registration numbers stay below the count issued |
| ProviderRegistry.DisposeByType | src/workflow/templates.ts:50-54 | the disposable as written: the entry for its type is removed, whatever registration it holds, and no other entry changes |
| ProviderRegistry.Dispose | src/workflow/templates.ts:50-54 | the corrected disposable: it removes the entry for its type only if that entry is its own registration; otherwise the registry is unchanged; no other type's lookup changes |
| ProviderRegistry.RegisterThenDispose | src/workflow/templates.ts:42-54 | registering then disposing restores the map as it was, and disposing a second time changes nothing (no throw) |
| ProviderRegistry.StaleDisposableKeepsLaterRegistration | src/workflow/templates.ts:42-54 | with the corrected disposable, register, dispose, re-register, dispose the first handle again: the second provider is still found |
| ProviderRegistry.StaleDisposableRemovesLaterRegistration | src/workflow/templates.ts:50-54 | as written, the same sequence removes the second provider: the stale handle deletes the later registration |
| Templates.EnsureStarterWorkflowsRegistered | src/workflow/templates.ts:14-40 | with the flag set nothing is fetched and nothing changes; a fetch happens exactly when the flag is clear and a GitHub context with repositories exists, with the first repository; the flag becomes true only together with the fetched definitions; a failed fetch leaves the state as it was |
| Templates.EnsureIdempotent | src/workflow/templates.ts:14-17 | after one successful registration every later call fetches nothing and returns the state unchanged, whatever the host answers |
| Templates.SelectWorkspace | src/workflow/templates.ts:57-71 | no folder throws; one folder is used without asking; with several, the folder at the picked index, or none when the pick is dismissed |
| Templates.GetWorkflowProvider | src/workflow/templates.ts:73-77 | the registry after activating the type's extension, and a provider exactly when that registry holds the type, namely the one registered there |
| Templates.FindStarter | src/workflow/templates.ts:110 | the first starter definition with the given id, or none exactly when no definition has that id |
| Templates.RunStarterProvider | src/workflow/templates.ts:79-97 | the caller's content if supplied, else the template's; missing or empty content throws with the template id before any activation; otherwise the provider registered under the template id (after activation) receives the content, and without one the content is written under the suggested file name |
| Templates.CallerContentPreferred | src/workflow/templates.ts:82 | when the caller supplies content, what the template would fetch makes no difference to the outcome |
| Templates.Picked | src/workflow/templates.ts:158-160 | a pick yields a definition exactly when it names a selectable entry of the shown list, and then it is that entry's definition; a dismissed pick yields none |
| Templates.SelectWorkflowProvider | src/workflow/templates.ts:108-162 | undefined starter definitions throw; with a type, the first starter of that id wins and nothing is activated; otherwise the type's extension is activated and the provider registered under the type (or none) is returned; without a type, a dismissed pick gives no provider and an unchanged registry, a picked starter entry gives that starter (one of the starter definitions), and a picked contributed workflow activates its extension and gives the provider registered under its type, or none |
| Templates.PickedStarterListed | src/workflow/templates.ts:124-126 | an entry of the quick pick that wraps a starter template wraps one of the starter definitions, not a contributed workflow |
| Templates.ChosenHolds | src/workflow/templates.ts:142-155 | every selectable item's definition is among the definitions behind the list |
| Templates.CreateWorkflow | src/workflow/templates.ts:164-218 | the state stays well formed; the flag is set only by a fetch; with a repository context the provider is bound to that context's folder and repository; otherwise to the folder `selectWorkspace` returns and the repository found for it; "not invoked" happens only without context and with several folders |
| Templates.StarterTakesPrecedence | src/workflow/templates.ts:108-114 | for any caller context, including none: with an explicit type matching a starter id, the starter template runs with its content even if a provider is registered under that type, bound to the folder settled on; it runs whenever a context is given or only one folder is open |
| Templates.UnknownTypeFails | src/workflow/templates.ts:116-122 | an explicit type that is no starter id and is not registered after activation ends in the "no workflow provider" error of line 169, not the one of line 122 |
| Templates.RegisteredTypeRunsProvider | src/workflow/templates.ts:108-120 | for any caller context, including none: an explicit type that is no starter id but is registered once its extension has activated runs exactly that provider, bound to the folder settled on; a folder error or a dismissed folder pick is passed on |
| Templates.PickedContributionRunsProvider | src/workflow/templates.ts:125-160 | for any caller context, including none: without a type, a picked contributed workflow runs exactly the provider its extension registers on activation, bound to the folder settled on |
| Templates.DismissedWorkflowPickFails | src/workflow/templates.ts:158-171 | without a type, dismissing the workflow quick pick ends in the "no workflow provider" error, whatever the caller context |
| Templates.NoGitHubContextFails | src/workflow/templates.ts:26-30 | without a GitHub context the definitions stay undefined and creating a workflow fails before any prompt, with or without a type |
| Templates.DismissedFolderPickInvokesNothing | src/workflow/templates.ts:175-179 | with several folders and a dismissed folder pick, a successful call never invokes the provider |
| Templates.CreateWorkflowFromContent | src/workflow/templates.ts:187-201 | when both file-system calls succeed: creates `.github/workflows` under the workspace folder, then writes the content to the suggested name inside it, and returns that file's URI (a failing call and a name with `..` are left out) |
| Templates.SetSecretCallback | src/workflow/templates.ts:202-216 | without a repository it throws before any client call; otherwise it makes exactly the calls of `setSecret`, succeeds exactly when they do, and returns the suggested name unchanged |
| WorkflowPicker.KnownGroupLabels | src/workflow/templates.ts:99-104 | the four known group ids map to their labels, and `ci` shares its label with `Continuous Integration`; the fallback of an unknown id to itself is checked on `security` only |
| WorkflowPicker.InGroupCount | src/workflow/templates.ts:129-140 | a label's group holds each definition with that label as often as the input does, and no other definition |
| WorkflowPicker.InGroupMembers | src/workflow/templates.ts:129-140 | a definition is in a label's group exactly when it is an input definition with that label |
| WorkflowPicker.GroupsAscending | src/workflow/templates.ts:142-145 | groups come in strictly ascending label order, so no label has two groups |
| WorkflowPicker.GroupsCoverLabels | src/workflow/templates.ts:129-144 | there is a group for a label exactly when some definition has that label |
| WorkflowPicker.GroupSorted | src/workflow/templates.ts:150-153 | the entries of each group are in ascending title order |
| WorkflowPicker.GroupMembers | src/workflow/templates.ts:129-140 | a group holds exactly the input definitions whose label is the group's label |
| WorkflowPicker.ExactlyOneGroup | src/workflow/templates.ts:129-140 | every definition lands in exactly one group, the one keyed by its label |
| WorkflowPicker.SameLabelSharesGroup | src/workflow/templates.ts:131-136 | definitions whose group ids differ but whose labels agree share one group |
| WorkflowPicker.ChosenConcat | src/workflow/templates.ts:155 | the definitions behind a concatenation of item lists are those of the parts, in order |
| WorkflowPicker.SeparatorsConcat | src/workflow/templates.ts:155 | the separators of a concatenation of item lists are those of the parts, in order |
| WorkflowPicker.ChoicesShape | src/workflow/templates.ts:150-153 | a group's entries contain no separator and show its definitions in order |
| WorkflowPicker.FlattenShape | src/workflow/templates.ts:146-155 | flattening puts exactly one separator per group, labelled and ordered as the groups, and all groups' entries in order |
| WorkflowPicker.FlattenLayout | src/workflow/templates.ts:146-155 | each group is its own separator, at the position after all earlier groups, immediately followed by exactly that group's entries |
| WorkflowPicker.AllDefinitionsCount | src/workflow/templates.ts:129-155 | groups with distinct labels, each holding a permutation of its label's definitions, together hold each definition as often as the input for the labels present |
| WorkflowPicker.GroupCounts | src/workflow/templates.ts:129-153 | sorting a group permutes the definitions with its label |
| WorkflowPicker.PartitionCount | src/workflow/templates.ts:129-155 | across all groups each definition occurs as often as in the input |
| WorkflowPicker.GroupsPartition | src/workflow/templates.ts:129-155 | the groups together are a permutation of the input definitions |
| WorkflowPicker.QuickPickItems | src/workflow/templates.ts:124-155 | the list shows every definition exactly once (as a permutation); its length is the number of groups plus the number of definitions; its separators are the labels in ascending order, each once |
| WorkflowPicker.QuickPickItemsLayout | src/workflow/templates.ts:142-155 | the g-th label in ascending order has its separator followed immediately by exactly the definitions with that label, in ascending title order |
| Order.LeReflexive | src/workflow/templates.ts:145 | the sort order is reflexive |
| Order.LeTotal | src/workflow/templates.ts:145 | any two strings are comparable |
| Order.LeAntisymmetric | src/workflow/templates.ts:145 | strings that sort no later than each other are equal |
| Order.LeTransitive | src/workflow/templates.ts:145 | the sort order is transitive |
| Order.Insert | src/workflow/templates.ts:152 | insertion adds exactly the one element to the sequence's contents |
| Order.InsertSorted | src/workflow/templates.ts:152 | inserting into a sorted sequence keeps it sorted |
| Order.InsertNoDuplicates | src/workflow/templates.ts:152 | inserting an element not present into a duplicate-free sequence keeps it duplicate-free |
| Order.SortBy | src/workflow/templates.ts:152 | sorting permutes the sequence |
| Order.SortBySorted | src/workflow/templates.ts:145 | the sorted sequence is in ascending key order, and stays duplicate-free when the input was |
| Order.Distinct | src/workflow/templates.ts:143-144 | the labels of the grouped object, each once, and exactly the labels present |
| Order.StrictlyAscending | src/workflow/templates.ts:145 | a sorted, duplicate-free sequence is strictly ascending |
| Paths.Dirname | src/workflow/starterWorkflows.ts:84 | the parent drops exactly the last segment; the parent of `.` is `.` |
| Paths.Join | src/workflow/starterWorkflows.ts:85 | the joined path renders as the directory, `/` and the name; an empty name leaves the directory as it is, and below `.` the name stands alone |
| Paths.RenderAppend | src/workflow/starterWorkflows.ts:96 | rendering a path extended by a segment appends `/` and the segment, and below `.` gives the segment alone |
| Paths.BaseName | src/workflow/starterWorkflows.ts:82 | a trailing suffix is removed, so the base name followed by the suffix is the name; otherwise the name is kept |
| StarterWorkflows.GetFileContent | src/workflow/starterWorkflows.ts:102-116 | a failing request fails; a missing or empty `content` field gives no text; otherwise the decoded text |
| StarterWorkflows.GetStarterWorkflowTemplate | src/workflow/starterWorkflows.ts:73-100 | the properties file is fetched first; absent or empty properties yield no template after one request; properties that parse lead to the YAML request; the result is an error exactly when a request fails or the properties do not parse; otherwise a template is found exactly when the YAML is present and non-empty, and it comes from the parsed properties and that YAML, with the derived id and suggested file name |
| StarterWorkflows.TemplatePathsAgree | src/workflow/starterWorkflows.ts:82-98 | the YAML path is the grandparent directory of the properties file plus the suggested file name, and its rendering is the id followed by `.yml` (the directory itself when the base name is empty) |
| StarterWorkflows.DownloadAll | src/workflow/starterWorkflows.ts:64-66 | a failed download reports the error of one of the listed files' downloads |
| StarterWorkflows.DownloadAllSucceeds | src/workflow/starterWorkflows.ts:64 | the download succeeds exactly when every file's download succeeds |
| StarterWorkflows.DownloadAllSound | src/workflow/starterWorkflows.ts:64-66 | each template downloaded is one a listed file yields, and there are no more templates than files |
| StarterWorkflows.DownloadAllConcat | src/workflow/starterWorkflows.ts:64-66 | listing order is kept: when both parts of a split listing download, the templates of the whole are those of the first part followed by those of the second |
| StarterWorkflows.RequestsConcat | src/workflow/starterWorkflows.ts:64 | the requests for a split listing are those for the first part followed by those for the second |
| StarterWorkflows.DownloadOne | src/workflow/starterWorkflows.ts:60-66 | a single file yields exactly its template, or nothing when its properties or YAML are missing |
| StarterWorkflows.Files | src/workflow/starterWorkflows.ts:54-58 | exactly the entries of kind file are kept |
| StarterWorkflows.FilesConcat | src/workflow/starterWorkflows.ts:58 | filtering keeps listing order: the files of a split listing are those of the first part followed by those of the second |
| StarterWorkflows.FilesOne | src/workflow/starterWorkflows.ts:54-58 | a single entry is kept exactly when it is a file |
| StarterWorkflows.GetStarterWorkflowTemplates | src/workflow/starterWorkflows.ts:37-71 | a set cache is returned unchanged without a request; otherwise the properties directory of `actions/starter-workflows` is listed first; a failed listing fails the call after that one request and leaves the cache unset; otherwise every file entry is downloaded, and the cache is set exactly when the whole download succeeds, to the result |
| StarterWorkflows.DownloadRequestFor | src/workflow/starterWorkflows.ts:74-88 | downloading one file asks only for its properties path and the YAML path derived from it |
| StarterWorkflows.OnlyFilesDownloaded | src/workflow/starterWorkflows.ts:47-64 | every request after the listing is for a listed file's path or the YAML path derived from one |
| StarterWorkflows.FetchedOnce | src/workflow/starterWorkflows.ts:35-40 | once a call has filled the cache, later calls return the same catalog without any request, even an empty catalog |
| WorkflowContributors.GetWorkflowContributors | src/workflow/workflowContributors.ts:13-28 | every value is the list an extension with that id declares |
| WorkflowContributors.ContributorKeys | src/workflow/workflowContributors.ts:13-28 | an id is a key exactly when some extension with that id declares `x-workflows` (an empty list counts); no extensions give no keys |
| WorkflowContributors.DeclaredIsKey | src/workflow/workflowContributors.ts:20-23 | an extension that declares `x-workflows` keeps its id among the keys, whatever extensions follow it |
| WorkflowContributors.ContributorValues | src/workflow/workflowContributors.ts:20-23 | the value under an id is the list declared by the last extension with that id, unchanged |
| Secrets.Latin1 | src/secrets/index.ts:14 | one character per byte, each character code equal to its byte |
| Secrets.Decode | src/secrets/index.ts:6-11 | fails exactly when `atob` rejects the text; otherwise one byte per decoded character, equal to its code |
| Secrets.Encode | src/secrets/index.ts:13-15 | for a standard base64 codec the text is present and `atob` gives back one character per byte |
| Secrets.DecodeEncode | src/secrets/index.ts:6-15 | when `atob` inverts `btoa` on Latin-1 strings, decoding the encoding of any bytes gives them back |
| Secrets.EncodeSecret | src/secrets/index.ts:17-28 | fails exactly when the key is not base64 or sealing rejects the decoded key; a non-base64 key fails as such |
| Secrets.EncodeSecretOpens | src/secrets/index.ts:17-28 | the encoded secret decodes, and opens with the matching private key, to the UTF-8 bytes of the value |
| Secrets.SetSecret | src/secrets/index.ts:30-47 | the public key is fetched first for the repository's owner and name; the upsert follows exactly when the key arrived and sealing succeeded, for the same owner and repository, with the given name, the response's key id and the secret sealed under the response's key; a failed key fetch submits nothing |
| Secrets.SubmittedSecretOpens | src/secrets/index.ts:37-46 | what is submitted carries the fetched key id and opens, with the matching private key, to the UTF-8 bytes of the value |

## Left out

- Concurrency and timing: the model is sequential. Concurrent first fetches, and the
  interleaving of the un-awaited calls at `src/workflow/templates.ts:91`, `:93` and `:116`,
  are not modelled. Errors thrown by the un-awaited calls at `:91` and `:93` are outside
  the outcome of `createWorkflow` in the code, and the model does not report them either.
  The promise of `:116` is returned and adopted, so its failure would fail `createWorkflow`.
- Activation failure: `Templates.Host` gives `activate` as a total function, so a failing
  `activateExtensionForWorkflow` (at `:74`, reached from `:88`, `:116` and `:125`) is not
  modelled. In the code it fails `createWorkflow`.
- Other failing host calls: `getGitHubContext` (`:26`), `template.getContent()` (`:82`),
  `getCustomWorkflows` (`:125`) and `getGitHubContextForWorkspaceUri` (`:182`) can fail. The
  awaited ones can reject and `getCustomWorkflows` can throw; either way `createWorkflow`
  fails in the code. The corresponding `Templates.Host` fields and
  `Templates.StarterTemplate.content` are plain values, so those failures are not modelled;
  only the undefined answers are.
- `Promise.all` rejects with whichever download fails first in time. The model
  (`StarterWorkflows.DownloadAll`) reports the first failure in listing order.
- `localeCompare`: replaced by a fixed lexicographic order on character codes, because
  locale collation is host data.
- The sealed box, the base64 alphabet, UTF-8 encoding and `JSON.parse` are foreign
  libraries. They are fields of `Secrets.Codec` and `StarterWorkflows.Remote`. Base64 is
  assumed to be the standard encoding of section 4 of RFC 4648 only through the
  `Secrets.Base64Inverse` requirement of the round-trip lemmas.
- Sealing draws a fresh ephemeral key pair on every call. A `Secrets.Codec` value stands
  for one draw, so two calls are not related.
- `Templates.CreateWorkflow`: the contract states the binding and the state. The choice of
  action is stated by other members rather than by the orchestrator's own contract, each
  for any caller context, including none:
  - `Templates.StarterTakesPrecedence`: an explicit starter id runs the starter.
  - `Templates.RegisteredTypeRunsProvider`: an explicit registered type runs its provider.
  - `Templates.UnknownTypeFails`: an unknown type fails.
  - `Templates.PickedContributionRunsProvider`: a picked contributed workflow runs its provider.
  - `Templates.DismissedWorkflowPickFails`: a dismissed workflow pick fails.
  - `Templates.RunStarterProvider`: what a starter does.
  No lemma covers a picked starter, which the contract of `Templates.SelectWorkflowProvider`
  states.
- `Templates.CreateWorkflowFromContent`: the model always succeeds, but
  `vscode.workspace.fs.createDirectory` (`src/workflow/templates.ts:193`) and
  `vscode.workspace.fs.writeFile` (`:195`) can reject. The callback then rejects, and a
  provider that awaits it fails `createWorkflow`. The file system is foreign code, so its
  failures are not modelled.
- `Templates.CreateWorkflowFromContent`: `vscode.Uri.joinPath` (`:189`) normalises the
  suggested name, so a provider-supplied name such as `../x.yml` lands outside
  `.github/workflows`. The model treats the name as one segment, as the contract states.
  URI normalisation is not modelled.
- `createWorkflowFromContent` and `setSecret` are modelled only as what they do when
  called. How often a provider calls them is up to the provider, which is foreign code.
- `getGitHubContext`, `getGitHubContextForWorkspaceUri`, `activateExtensionForWorkflow`
  and `getCustomWorkflows` are fields of `Templates.Host`. Their modules are not part of
  this model.
- JavaScript plain-object quirks are ignored. For example, a workflow type named
  `constructor` finds an inherited member of `workflowProviders`, and a group named
  `toString` finds one in `groupLabels`.
- Windows path separators are not modelled.
- `path.basename` of a name containing `/` is not modelled, nor is `.`/`..` normalisation.
  Catalog paths are relative segment lists without such segments.
- The command modules (`src/commands/...`) and the extension API plumbing
  (`src/api/extension/...`) are glue and are not modelled.
- The template shape `templates.ts` expects (`getContent()`, `group`) is not the one
  `starterWorkflows.ts` returns (an eager `content`, no `group`). Each file is modelled
  against its own shape: `Templates.StarterTemplate` and `StarterWorkflows.Template`.

## Findings

| source | as written | input that shows it | evidently intended | confidence | as-written member | corrected member |
|---|---|---|---|---|---|---|
| src/workflow/templates.ts:50-54 | the disposable deletes `workflowProviders[type]`, whoever registered it | register a provider for `t` (handle `h1`); `h1.dispose()`; register another provider for `t`; `h1.dispose()` again: the second provider is gone | a disposable removes only its own registration, so disposing twice is harmless | medium; not executed | ProviderRegistry.StaleDisposableRemovesLaterRegistration | ProviderRegistry.StaleDisposableKeepsLaterRegistration |

=== FILE: order.dfy ===
/** The string order used for sorting the workflow quick pick, and the sort itself.

    The TypeScript code compares with `String.prototype.localeCompare`, whose result depends
    on the locale. The model replaces it by one fixed total order, lexicographic by
    character code, and keeps the property of `Array.prototype.sort` the code relies on:
    the result is an ordered permutation of the input. */
module Order {

  /** `a` sorts no later than `b`. */
  predicate Le(a: string, b: string)
    decreases |a|
  {
    |a| == 0 || (|b| > 0 && (a[0] < b[0] || (a[0] == b[0] && Le(a[1..], b[1..]))))
  }

  lemma {:induction false} LeReflexive(a: string)
    ensures Le(a, a)
    decreases |a|
  {
    if |a| > 0 {
      LeReflexive(a[1..]);
    }
  }

  lemma {:induction false} LeTotal(a: string, b: string)
    ensures Le(a, b) || Le(b, a)
    decreases |a|
  {
    if |a| > 0 && |b| > 0 && a[0] == b[0] {
      LeTotal(a[1..], b[1..]);
    }
  }

  lemma {:induction false} LeAntisymmetric(a: string, b: string)
    requires Le(a, b) && Le(b, a)
    ensures a == b
    decreases |a|
  {
    if |a| > 0 {
      LeAntisymmetric(a[1..], b[1..]);
      assert a == [a[0]] + a[1..];
      assert b == [b[0]] + b[1..];
    }
  }

  lemma {:induction false} LeTransitive(a: string, b: string, c: string)
    requires Le(a, b) && Le(b, c)
    ensures Le(a, c)
    decreases |a|
  {
    if |a| > 0 && a[0] == b[0] && b[0] == c[0] {
      LeTransitive(a[1..], b[1..], c[1..]);
    }
  }

  /** `s` is in ascending order of `key`. */
  ghost predicate SortedBy<T>(s: seq<T>, key: T -> string)
  {
    forall i, j :: 0 <= i < j < |s| ==> Le(key(s[i]), key(s[j]))
  }

  /** No element occurs twice in `s`. */
  ghost predicate NoDuplicates<T>(s: seq<T>)
  {
    forall i, j :: 0 <= i < j < |s| ==> s[i] != s[j]
  }

  /** Inserts `x` into `s` before the first element whose key is not smaller. */
  function Insert<T>(x: T, s: seq<T>, key: T -> string): (r: seq<T>)
    ensures multiset(r) == multiset(s) + multiset{x}
    decreases |s|
  {
    if |s| == 0 || Le(key(x), key(s[0])) then
      [x] + s
    else
      assert s == [s[0]] + s[1..];
      [s[0]] + Insert(x, s[1..], key)
  }

  lemma {:induction false} InsertSorted<T>(x: T, s: seq<T>, key: T -> string)
    requires SortedBy(s, key)
    ensures SortedBy(Insert(x, s, key), key)
    decreases |s|
  {
    if |s| == 0 || Le(key(x), key(s[0])) {
      forall j | 0 < j < |s|
        ensures Le(key(x), key(s[j]))
      {
        LeTransitive(key(x), key(s[0]), key(s[j]));
      }
    } else {
      LeTotal(key(x), key(s[0]));
      InsertSorted(x, s[1..], key);
      var rest := Insert(x, s[1..], key);
      forall k | 0 <= k < |rest|
        ensures Le(key(s[0]), key(rest[k]))
      {
        assert rest[k] in multiset(rest);
        if rest[k] != x {
          assert rest[k] in multiset(s[1..]);
          var j :| 0 <= j < |s[1..]| && s[1..][j] == rest[k];
          assert s[j + 1] == rest[k];
        }
      }
    }
  }

  lemma {:induction false} InsertNoDuplicates<T>(x: T, s: seq<T>, key: T -> string)
    requires x !in s && NoDuplicates(s)
    ensures NoDuplicates(Insert(x, s, key))
    decreases |s|
  {
    if |s| > 0 && !Le(key(x), key(s[0])) {
      InsertNoDuplicates(x, s[1..], key);
      var rest := Insert(x, s[1..], key);
      forall k | 0 <= k < |rest|
        ensures rest[k] != s[0]
      {
        assert rest[k] in multiset(rest);
        assert s[0] !in s[1..];
      }
    }
  }

  /** Insertion sort by `key`. */
  function SortBy<T>(s: seq<T>, key: T -> string): (r: seq<T>)
    ensures multiset(r) == multiset(s)
    ensures |r| == |s|
    decreases |s|
  {
    if |s| == 0 then []
    else
      assert s == [s[0]] + s[1..];
      var r := Insert(s[0], SortBy(s[1..], key), key);
      assert |r| == |multiset(r)| == |multiset(s)| == |s|;
      r
  }

  lemma {:induction false} SortBySorted<T>(s: seq<T>, key: T -> string)
    ensures SortedBy(SortBy(s, key), key)
    ensures NoDuplicates(s) ==> NoDuplicates(SortBy(s, key))
    decreases |s|
  {
    if |s| > 0 {
      SortBySorted(s[1..], key);
      InsertSorted(s[0], SortBy(s[1..], key), key);
      if NoDuplicates(s) {
        assert s == [s[0]] + s[1..];
        assert s[0] !in multiset(SortBy(s[1..], key));
        InsertNoDuplicates(s[0], SortBy(s[1..], key), key);
      }
    }
  }

  /** The elements of `s` in order of first occurrence, each once. */
  function Distinct<T(==,!new)>(s: seq<T>): (r: seq<T>)
    ensures NoDuplicates(r)
    ensures forall x :: x in r <==> x in s
    decreases |s|
  {
    if |s| == 0 then []
    else
      var r := Distinct(s[..|s| - 1]);
      var x := s[|s| - 1];
      assert s == s[..|s| - 1] + [x];
      if x in r then r else r + [x]
  }

  /** The identity key, for sorting strings themselves. */
  function Self(s: string): string { s }

  /** A sorted list without duplicates is strictly ascending. */
  lemma StrictlyAscending(s: seq<string>, i: int, j: int)
    requires SortedBy(s, Self) && NoDuplicates(s)
    requires 0 <= i < j < |s|
    ensures Le(s[i], s[j]) && s[i] != s[j]
  {
  }
}

=== FILE: outcomes.dfy ===
/** Absent values and failing computations, as the TypeScript code expresses them with
    `undefined` and with thrown errors / rejected promises. */
module Outcomes {

  /** A value that may be `undefined`. */
  datatype Option<+T> = None | Some(value: T)

  /** The outcome of a call that may throw: `Err` carries what was thrown. */
  datatype Result<+T, +E> = Ok(value: T) | Err(error: E)

  /** JavaScript truthiness of a possibly undefined string: defined and not empty. */
  predicate Truthy(text: Option<string>)
  {
    text.Some? && text.value != ""
  }
}

=== FILE: paths.dfy ===
/** POSIX paths as the catalog code manipulates them with Node's `path` module.

    A path is the list of its segments: `deployments/properties/ci.properties.json` is
    `["deployments", "properties", "ci.properties.json"]`, and the empty list is `.`.
    Paths in the remote catalog are relative and contain no `.`, `..` or empty segments,
    so `path.dirname` and `path.join` act on them as list operations. */
module Paths {

  type Path = seq<string>

  /** `path.dirname`: everything but the last segment; the parent of `.` is `.`. */
  function Dirname(p: Path): (r: Path)
    ensures |p| > 0 ==> r + [p[|p| - 1]] == p
    ensures |p| == 0 ==> r == []
  {
    if |p| == 0 then [] else p[..|p| - 1]
  }

  /** `path.join(dir, name)` for a name without separators: the string it returns is the
      directory, a `/` and the name; `path.join` drops empty arguments, so joining `""`
      leaves `dir` as it is, and below `.` the name stands alone. */
  function Join(dir: Path, name: string): (r: Path)
    ensures Render(r) == if name == "" then Render(dir) else if |dir| == 0 then name else Render(dir) + "/" + name
    ensures name != "" ==> r == dir + [name]
    ensures name == "" ==> r == dir
  {
    if name == "" then dir
    else
      RenderAppend(dir, name);
      dir + [name]
  }

  /** The segments separated by `/`. */
  function Slashed(p: Path): string
    requires |p| > 0
  {
    if |p| == 1 then p[0] else Slashed(p[..|p| - 1]) + "/" + p[|p| - 1]
  }

  /** The path as the string Node prints for it. */
  function Render(p: Path): string
  {
    if |p| == 0 then "." else Slashed(p)
  }

  /** Appending a segment appends it, after a separator, to the rendered string; below
      `.` the segment stands alone, as `path.join(".", name)` normalises to `name`. */
  lemma RenderAppend(dir: Path, name: string)
    ensures Render(dir + [name]) == (if |dir| == 0 then name else Render(dir) + "/" + name)
  {
  }

  predicate EndsWith(s: string, suffix: string)
  {
    |suffix| <= |s| && s[|s| - |suffix|..] == suffix
  }

  /** `path.basename(name, suffix)` for a name that is a single segment: the trailing
      `suffix` is removed when present (a name equal to `suffix` becomes empty). */
  function BaseName(name: string, suffix: string): (r: string)
    ensures EndsWith(name, suffix) ==> r + suffix == name
    ensures !EndsWith(name, suffix) ==> r == name
  {
    if EndsWith(name, suffix) then name[..|name| - |suffix|] else name
  }
}

=== FILE: provider_registry.dfy ===
/** The registry of workflow providers (`registerWorkflowProvider` and its disposable in
    `src/workflow/templates.ts`).

    Providers are objects supplied by other extensions; the model knows them only by an
    opaque identity. Each registration is numbered, so that a disposable can tell its own
    registration from a later one under the same type: the code deletes by type alone, which
    lets a stale disposable remove someone else's registration (`DisposeByType` shows it);
    `Dispose` removes only the disposable's own registration. */
module ProviderRegistry {
  import opened Outcomes

  /** A provider object, known by its identity. */
  datatype Provider = Provider(identity: nat)

  /** A registration: the provider and the number of the `register` call that made it. */
  datatype Registration = Registration(provider: Provider, serial: nat)

  /** The provider map, keyed by workflow type, and the number of registrations made so far. */
  datatype Registry = Registry(entries: map<string, Registration>, issued: nat)

  /** The disposable `registerWorkflowProvider` returns. */
  datatype Disposable = Disposable(workflowType: string, serial: nat)

  datatype RegistryError = DuplicateType(workflowType: string)

  /** The registry after a `register` call, and what the call returned or threw. */
  datatype Registered = Registered(registry: Registry, result: Result<Disposable, RegistryError>)

  const Empty := Registry(map[], 0)

  /** Every registration was numbered before the current count. */
  ghost predicate Valid(r: Registry)
  {
    forall t :: t in r.entries ==> r.entries[t].serial < r.issued
  }

  /** `workflowProviders[type]`: provider objects are always truthy, so a provider is found
      exactly for a registered type, and it is the registered one. */
  function Lookup(r: Registry, workflowType: string): (found: Option<Provider>)
    ensures found.Some? <==> workflowType in r.entries
    ensures found.Some? ==> found.value == r.entries[workflowType].provider
  {
    if workflowType in r.entries then Some(r.entries[workflowType].provider) else None
  }

  /** `registerWorkflowProvider`: a type that already has a provider throws and leaves the map
      as it is; otherwise exactly that type is added. Starter template ids are not reserved. */
  function Register(r: Registry, workflowType: string, provider: Provider): (out: Registered)
    ensures out.result.Err? <==> workflowType in r.entries
    ensures out.result.Err? ==> out.registry == r && out.result.error == DuplicateType(workflowType)
    ensures out.result.Ok? ==>
              && out.registry.entries.Keys == r.entries.Keys + {workflowType}
              && Lookup(out.registry, workflowType) == Some(provider)
              && out.result.value.workflowType == workflowType
              && (forall t :: t != workflowType ==> Lookup(out.registry, t) == Lookup(r, t))
    ensures Valid(r) ==> Valid(out.registry)
  {
    if workflowType in r.entries then Registered(r, Err(DuplicateType(workflowType)))
    else
      var serial := r.issued;
      Registered(Registry(r.entries[workflowType := Registration(provider, serial)], serial + 1),
                 Ok(Disposable(workflowType, serial)))
  }

  /** The disposable as written: `delete workflowProviders[type]`. */
  function DisposeByType(r: Registry, d: Disposable): (out: Registry)
    ensures out.entries.Keys == r.entries.Keys - {d.workflowType}
    ensures forall t :: t != d.workflowType ==> Lookup(out, t) == Lookup(r, t)
  {
    r.(entries := r.entries - {d.workflowType})
  }

  /** A disposable that removes its own registration and nothing else. */
  function Dispose(r: Registry, d: Disposable): (out: Registry)
    ensures forall t :: t != d.workflowType ==> Lookup(out, t) == Lookup(r, t)
    ensures d.workflowType in r.entries && r.entries[d.workflowType].serial == d.serial ==>
              out.entries.Keys == r.entries.Keys - {d.workflowType}
    ensures !(d.workflowType in r.entries && r.entries[d.workflowType].serial == d.serial) ==> out == r
    ensures Valid(r) ==> Valid(out)
  {
    if d.workflowType in r.entries && r.entries[d.workflowType].serial == d.serial
    then r.(entries := r.entries - {d.workflowType})
    else r
  }

  /** Registering then disposing gives back the map as it was, and disposing a second time
      changes nothing. */
  lemma RegisterThenDispose(r: Registry, workflowType: string, provider: Provider)
    requires Valid(r)
    requires Register(r, workflowType, provider).result.Ok?
    ensures var out := Register(r, workflowType, provider);
            && Dispose(out.registry, out.result.value).entries == r.entries
            && Dispose(Dispose(out.registry, out.result.value), out.result.value) == Dispose(out.registry, out.result.value)
  {
  }

  /** A stale disposable leaves a later registration of the same type in place. */
  lemma StaleDisposableKeepsLaterRegistration(r: Registry, workflowType: string, first: Provider, second: Provider)
    requires Valid(r)
    requires Register(r, workflowType, first).result.Ok?
    ensures var one := Register(r, workflowType, first);
            var cleared := Dispose(one.registry, one.result.value);
            var two := Register(cleared, workflowType, second);
            && two.result.Ok?
            && Lookup(Dispose(two.registry, one.result.value), workflowType) == Some(second)
  {
  }

  /** As written, the same sequence loses the later registration: the second provider is no
      longer found once the first disposable is disposed again. */
  lemma StaleDisposableRemovesLaterRegistration(r: Registry, workflowType: string, first: Provider, second: Provider)
    requires Register(r, workflowType, first).result.Ok?
    ensures var one := Register(r, workflowType, first);
            var cleared := DisposeByType(one.registry, one.result.value);
            var two := Register(cleared, workflowType, second);
            && two.result.Ok?
            && Lookup(two.registry, workflowType) == Some(second)
            && Lookup(DisposeByType(two.registry, one.result.value), workflowType) == None
  {
  }
}

=== FILE: secrets.dfy ===
/** Sealing a secret and storing it in a repository (`src/secrets/index.ts`).

    The byte/character bridges around base64 are modelled exactly; `atob`, `btoa`,
    `TextEncoder.encode` and libsodium's `seal` are foreign code and enter as the functions of
    a `Codec` value. Sealing draws a fresh ephemeral key pair on every call; a `Codec` value
    stands for one such draw. */
module Secrets {
  import opened Outcomes

  newtype byte = x: int | 0 <= x < 256

  /** The foreign functions:
      - `atob`: base64 to a Latin-1 string, `None` for the `null` it returns on bad input;
      - `btoa`: a Latin-1 string to base64, `None` for the `null` it returns on other input;
      - `utf8`: `TextEncoder.encode`;
      - `seal`: `sodium.seal(message, publicKey)`, `None` when it throws (bad key size). */
  datatype Codec = Codec(
    atob: string -> Option<string>,
    btoa: string -> Option<string>,
    utf8: string -> seq<byte>,
    seal: (seq<byte>, seq<byte>) -> Option<seq<byte>>)

  datatype SecretError =
    | NotBase64          // `atob(...)!.split` on `null` throws a TypeError
    | InvalidKey         // `sodium.seal` rejected the key
    | RequestFailed(message: string)

  /** Every character is a single byte. */
  predicate IsLatin1(s: string)
  {
    forall i :: 0 <= i < |s| ==> s[i] as int < 256
  }

  /** Standard base64 (section 4 of RFC 4648) on Latin-1 strings: `btoa` accepts them and
      `atob` undoes it. */
  ghost predicate Base64Inverse(codec: Codec)
  {
    forall s :: IsLatin1(s) ==> codec.btoa(s).Some? && codec.atob(codec.btoa(s).value) == Some(s)
  }

  /** `String.fromCharCode.apply(null, Array.from(bytes))`: one character per byte. */
  function Latin1(bytes: seq<byte>): (s: string)
    ensures |s| == |bytes| && IsLatin1(s)
    ensures forall i :: 0 <= i < |bytes| ==> s[i] as int == bytes[i] as int
  {
    seq(|bytes|, i requires 0 <= i < |bytes| => bytes[i] as int as char)
  }

  /** `Uint8Array.from(s.split("").map(x => x.charCodeAt(0)))`: one byte per character, the
      character code reduced modulo 256 as a `Uint8Array` stores it. */
  function CharCodes(s: string): seq<byte>
  {
    seq(|s|, i requires 0 <= i < |s| => (s[i] as int % 256) as byte)
  }

  /** `decode`: the bytes of a base64 string. */
  function Decode(codec: Codec, encoded: string): (r: Result<seq<byte>, SecretError>)
    ensures r.Err? <==> codec.atob(encoded).None?
    ensures r.Err? ==> r.error == NotBase64
    ensures r.Ok? ==> |r.value| == |codec.atob(encoded).value|
    ensures r.Ok? && IsLatin1(codec.atob(encoded).value) ==>
              forall i :: 0 <= i < |r.value| ==> r.value[i] as int == codec.atob(encoded).value[i] as int
  {
    match codec.atob(encoded)
    case None => Err(NotBase64)
    case Some(text) => Ok(CharCodes(text))
  }

  /** `encode`: the base64 text of some bytes (`None` stands for the `null` `btoa` would
      return, which the code passes on unchecked). `btoa` is handed one character per byte,
      so for a standard base64 codec the text is present and `atob` gives those characters
      back. */
  function Encode(codec: Codec, bytes: seq<byte>): (encoded: Option<string>)
    ensures Base64Inverse(codec) ==> encoded.Some? && codec.atob(encoded.value) == Some(Latin1(bytes))
  {
    codec.btoa(Latin1(bytes))
  }

  /** Decoding undoes encoding, for every byte sequence, when `atob` undoes `btoa`. */
  lemma DecodeEncode(codec: Codec, bytes: seq<byte>)
    requires Base64Inverse(codec)
    ensures Encode(codec, bytes).Some?
    ensures Decode(codec, Encode(codec, bytes).value) == Ok(bytes)
  {
    var text := Latin1(bytes);
    assert codec.atob(codec.btoa(text).value) == Some(text);
    assert CharCodes(text) == bytes;
  }

  /** `encodeSecret`: the base64 of `value`'s UTF-8 bytes sealed under the base64 `key`. */
  function EncodeSecret(codec: Codec, key: string, value: string): (r: Result<Option<string>, SecretError>)
    ensures r.Err? <==> Decode(codec, key).Err? || codec.seal(codec.utf8(value), Decode(codec, key).value).None?
    ensures Decode(codec, key).Err? ==> r == Err(NotBase64)
  {
    var message := codec.utf8(value);
    match Decode(codec, key)
    case Err(e) => Err(e)
    case Ok(publicKey) =>
      match codec.seal(message, publicKey)
      case None => Err(InvalidKey)
      case Some(sealed) => Ok(Encode(codec, sealed))
  }

  /** `open` recovers from `seal` under `publicKey` every message that seals. */
  ghost predicate Opens(codec: Codec, publicKey: seq<byte>, open: seq<byte> -> Option<seq<byte>>)
  {
    forall m :: codec.seal(m, publicKey).Some? ==> open(codec.seal(m, publicKey).value) == Some(m)
  }

  /** The encoded secret carries the sealed UTF-8 bytes of the value: decoding it and opening
      it with the matching private key gives them back. */
  lemma EncodeSecretOpens(codec: Codec, open: seq<byte> -> Option<seq<byte>>, key: string, value: string)
    requires Base64Inverse(codec)
    requires Decode(codec, key).Ok? && Opens(codec, Decode(codec, key).value, open)
    requires EncodeSecret(codec, key, value).Ok?
    ensures var encrypted := EncodeSecret(codec, key, value).value;
            && encrypted.Some?
            && Decode(codec, encrypted.value).Ok?
            && open(Decode(codec, encrypted.value).value) == Some(codec.utf8(value))
  {
    var sealed := codec.seal(codec.utf8(value), Decode(codec, key).value).value;
    DecodeEncode(codec, sealed);
  }

  /** The repository a secret goes to (the `owner` and `name` of a repository context). */
  datatype Repository = Repository(owner: string, name: string)

  /** The answer to `getRepoPublicKey`. */
  datatype PublicKey = PublicKey(keyId: string, key: string)

  /** The two calls `setSecret` makes on the hosting-service client. */
  datatype Call =
    | GetRepoPublicKey(owner: string, repo: string)
    | CreateOrUpdateRepoSecret(owner: string, repo: string, secretName: string, keyId: string, encryptedValue: Option<string>)

  /** The calls made by one `setSecret`, and how it ended. */
  datatype Submission = Submission(calls: seq<Call>, result: Result<(), SecretError>)

  /** `setSecret`: fetch the repository's public key, seal the value under it, and submit it
      with the key's id. `keyReply` and `submitReply` are the client's answers to the two
      calls (an error message when the call throws). */
  function SetSecret(codec: Codec, repository: Repository, name: string, value: string,
                     keyReply: Result<PublicKey, string>, submitReply: Result<(), string>): (s: Submission)
    ensures 1 <= |s.calls| <= 2
    ensures s.calls[0] == GetRepoPublicKey(repository.owner, repository.name)
    ensures keyReply.Err? ==> s == Submission([s.calls[0]], Err(RequestFailed(keyReply.error)))
    ensures |s.calls| == 2 <==> keyReply.Ok? && EncodeSecret(codec, keyReply.value.key, value).Ok?
    ensures |s.calls| == 2 ==>
              s.calls[1] == CreateOrUpdateRepoSecret(repository.owner, repository.name, name, keyReply.value.keyId,
                                                     EncodeSecret(codec, keyReply.value.key, value).value)
    ensures s.result.Ok? <==> |s.calls| == 2 && submitReply.Ok?
  {
    var fetchKey := GetRepoPublicKey(repository.owner, repository.name);
    match keyReply
    case Err(message) => Submission([fetchKey], Err(RequestFailed(message)))
    case Ok(publicKey) =>
      match EncodeSecret(codec, publicKey.key, value)
      case Err(e) => Submission([fetchKey], Err(e))
      case Ok(encrypted) =>
        var submit := CreateOrUpdateRepoSecret(repository.owner, repository.name, name, publicKey.keyId, encrypted);
        match submitReply
        case Err(message) => Submission([fetchKey, submit], Err(RequestFailed(message)))
        case Ok(_) => Submission([fetchKey, submit], Ok(()))
  }

  /** End to end: what `setSecret` submits opens, with the private key matching the fetched
      public key, to the UTF-8 bytes of the value. */
  lemma SubmittedSecretOpens(codec: Codec, open: seq<byte> -> Option<seq<byte>>, repository: Repository,
                             name: string, value: string, publicKey: PublicKey, submitReply: Result<(), string>)
    requires Base64Inverse(codec)
    requires Decode(codec, publicKey.key).Ok? && Opens(codec, Decode(codec, publicKey.key).value, open)
    requires |SetSecret(codec, repository, name, value, Ok(publicKey), submitReply).calls| == 2
    ensures var submitted := SetSecret(codec, repository, name, value, Ok(publicKey), submitReply).calls[1];
            && submitted.keyId == publicKey.keyId
            && submitted.encryptedValue.Some?
            && Decode(codec, submitted.encryptedValue.value).Ok?
            && open(Decode(codec, submitted.encryptedValue.value).value) == Some(codec.utf8(value))
  {
    EncodeSecretOpens(codec, open, publicKey.key, value);
  }
}

=== FILE: starter_workflows.dfy ===
/** The catalog of starter workflows that `src/workflow/starterWorkflows.ts` downloads from
    the `actions/starter-workflows` repository.

    The catalog lists the directory `deployments/properties`; each file `<base>.properties.json`
    there describes one template whose YAML lives two directories up, at
    `deployments/<base>.yml`. The hosting service, the base64 decoder and `JSON.parse` are
    foreign code and enter the model as the functions of a `Remote` value. The TypeScript
    code starts every download at once (`Promise.all`); the model lists their requests file
    by file, and when several downloads fail it reports the first failure in listing order. */
module StarterWorkflows {
  import opened Outcomes
  import opened Paths

  const Owner := "actions"
  const Repo := "starter-workflows"
  const PropertiesDirectory: Path := ["deployments", "properties"]
  const PropertiesSuffix := ".properties.json"
  const ContentSuffix := ".yml"

  datatype EntryKind = File | Directory

  /** One entry of a directory listing. */
  datatype DirectoryEntry = DirectoryEntry(name: string, path: Path, kind: EntryKind)

  /** The parsed `<base>.properties.json`. */
  datatype Properties = Properties(
    name: string, description: string, creator: string, iconName: string, categories: seq<string>)

  datatype Template = Template(id: string, properties: Properties, content: string, suggestedFileName: string)

  /** `client.repos.getContent({ owner, repo, path })`. */
  datatype Request = GetContent(owner: string, repo: string, path: Path)

  /** The collaborators the catalog consults:
      - `listing`: the answer to the listing request, or the message of the error it throws;
      - `file`: for a path, `data.content` of the answer (base64, `None` when the field is
        missing), or the message of the error the request throws;
      - `decodeBase64`: `Buffer.from(content, 'base64').toString('utf8')`;
      - `parse`: `JSON.parse` of a properties file, `None` when it throws. */
  datatype Remote = Remote(
    listing: Result<seq<DirectoryEntry>, string>,
    file: Path -> Result<Option<string>, string>,
    decodeBase64: string -> string,
    parse: string -> Option<Properties>)

  datatype CatalogError = RequestFailed(message: string) | InvalidProperties(path: Path)

  /** What downloading one properties file produced, and the requests it made. */
  datatype Download = Download(result: Result<Option<Template>, CatalogError>, requests: seq<Request>)

  /** What one call of `getStarterWorkflowTemplates` returned, the module cache after it, and
      the requests it made. */
  datatype Catalog = Catalog(result: Result<seq<Template>, CatalogError>, cache: Option<seq<Template>>, requests: seq<Request>)

  function Fetch(path: Path): Request
  {
    GetContent(Owner, Repo, path)
  }

  /** `getFileContent`: no text when `data.content` is missing or empty, the decoded text
      otherwise; a failing request fails the call. */
  function GetFileContent(remote: Remote, path: Path): (r: Result<Option<string>, CatalogError>)
    ensures r.Err? <==> remote.file(path).Err?
    ensures r.Err? ==> r.error == RequestFailed(remote.file(path).error)
    ensures r.Ok? && r.value.Some? <==> remote.file(path).Ok? && remote.file(path).value.Some? && remote.file(path).value.value != ""
    ensures r.Ok? && r.value.Some? ==> r.value.value == remote.decodeBase64(remote.file(path).value.value)
  {
    match remote.file(path)
    case Err(message) => Err(RequestFailed(message))
    case Ok(None) => Ok(None)
    case Ok(Some(content)) => if content == "" then Ok(None) else Ok(Some(remote.decodeBase64(content)))
  }

  /** The name of a properties file without its `.properties.json` suffix. */
  function BaseNameOf(file: DirectoryEntry): string
  {
    BaseName(file.name, PropertiesSuffix)
  }

  /** The directory holding the template's YAML: the grandparent of the properties file. */
  function TemplateDirectory(file: DirectoryEntry): Path
  {
    Dirname(Dirname(file.path))
  }

  function ContentPath(file: DirectoryEntry): Path
  {
    Join(TemplateDirectory(file), BaseNameOf(file) + ContentSuffix)
  }

  function TemplateId(file: DirectoryEntry): string
  {
    Render(Join(TemplateDirectory(file), BaseNameOf(file)))
  }

  /** `getStarterWorkflowTemplate`: fetch and parse the properties, then fetch the YAML. */
  function GetStarterWorkflowTemplate(remote: Remote, file: DirectoryEntry): (d: Download)
    ensures 1 <= |d.requests| <= 2 && d.requests[0] == Fetch(file.path)
    ensures |d.requests| == 2 ==> d.requests[1] == Fetch(ContentPath(file))
    ensures GetFileContent(remote, file.path).Ok? && !Truthy(GetFileContent(remote, file.path).value) ==>
              d == Download(Ok(None), [Fetch(file.path)])
    ensures d.result.Ok? && d.result.value.Some? ==>
              && GetFileContent(remote, file.path).Ok?
              && Truthy(GetFileContent(remote, file.path).value)
              && remote.parse(GetFileContent(remote, file.path).value.value) == Some(d.result.value.value.properties)
              && GetFileContent(remote, ContentPath(file)) == Ok(Some(d.result.value.value.content))
              && d.result.value.value.content != ""
              && d.result.value.value.id == TemplateId(file)
              && d.result.value.value.suggestedFileName == BaseNameOf(file) + ContentSuffix
    ensures var properties := GetFileContent(remote, file.path);
            var yaml := GetFileContent(remote, ContentPath(file));
            && (|d.requests| == 2 <==> properties.Ok? && Truthy(properties.value) && remote.parse(properties.value.value).Some?)
            && (d.result.Err? <==> properties.Err? || (|d.requests| == 2 && yaml.Err?) ||
                                   (properties.Ok? && Truthy(properties.value) && remote.parse(properties.value.value).None?))
            && (properties.Err? ==> d.result == Err(properties.error))
            && (|d.requests| == 2 && yaml.Err? ==> d.result == Err(yaml.error))
            && (|d.requests| == 2 && yaml.Ok? ==> d.result.Ok? && (d.result.value.Some? <==> Truthy(yaml.value)))
  {
    match GetFileContent(remote, file.path)
    case Err(e) => Download(Err(e), [Fetch(file.path)])
    case Ok(propertiesContent) =>
      if !Truthy(propertiesContent) then Download(Ok(None), [Fetch(file.path)])
      else
        match remote.parse(propertiesContent.value)
        case None => Download(Err(InvalidProperties(file.path)), [Fetch(file.path)])
        case Some(properties) =>
          var requests := [Fetch(file.path), Fetch(ContentPath(file))];
          match GetFileContent(remote, ContentPath(file))
          case Err(e) => Download(Err(e), requests)
          case Ok(templateContent) =>
            if !Truthy(templateContent) then Download(Ok(None), requests)
            else
              var template := Template(TemplateId(file), properties, templateContent.value, BaseNameOf(file) + ContentSuffix);
              Download(Ok(Some(template)), requests)
  }

  /** The id, the YAML path and the suggested file name agree: the YAML path is the id
      followed by `.yml`, its last segment is the suggested file name, and it sits in the
      grandparent directory of the properties file. A properties file named exactly
      `.properties.json` is the exception: `path.join` drops the empty base name, so the id
      is the directory itself. */
  lemma TemplatePathsAgree(remote: Remote, file: DirectoryEntry)
    requires GetStarterWorkflowTemplate(remote, file).result.Ok?
    requires GetStarterWorkflowTemplate(remote, file).result.value.Some?
    ensures var t := GetStarterWorkflowTemplate(remote, file).result.value.value;
            && ContentPath(file) == TemplateDirectory(file) + [t.suggestedFileName]
            && (BaseNameOf(file) != "" ==> Render(ContentPath(file)) == t.id + ContentSuffix)
            && (BaseNameOf(file) == "" ==> t.id == Render(TemplateDirectory(file)))
  {
  }

  /** The requests of downloading `files` one after the other. */
  function Requests(remote: Remote, files: seq<DirectoryEntry>): seq<Request>
    decreases |files|
  {
    if |files| == 0 then [] else GetStarterWorkflowTemplate(remote, files[0]).requests + Requests(remote, files[1..])
  }

  /** Downloads every listed file and keeps the templates that were found, in listing
      order; one failing download fails the whole call, as `Promise.all` does. */
  function DownloadAll(remote: Remote, files: seq<DirectoryEntry>): (r: Result<seq<Template>, CatalogError>)
    ensures r.Err? ==> exists i :: 0 <= i < |files| && GetStarterWorkflowTemplate(remote, files[i]).result == Err(r.error)
    decreases |files|
  {
    if |files| == 0 then Ok([]) else Combine(GetStarterWorkflowTemplate(remote, files[0]).result, DownloadAll(remote, files[1..]))
  }

  /** One file's download put in front of the downloads of the files after it. */
  function Combine(first: Result<Option<Template>, CatalogError>, rest: Result<seq<Template>, CatalogError>): Result<seq<Template>, CatalogError>
  {
    if first.Err? then Err(first.error)
    else if rest.Err? then Err(rest.error)
    else Ok((if first.value.Some? then [first.value.value] else []) + rest.value)
  }

  lemma CombineAppend(first: Result<Option<Template>, CatalogError>, a: seq<Template>, b: seq<Template>)
    requires first.Ok?
    ensures Combine(first, Ok(a + b)) == Ok(Combine(first, Ok(a)).value + b)
  {
    var found := if first.value.Some? then [first.value.value] else [];
    assert found + (a + b) == (found + a) + b;
  }

  /** The download fails exactly when one file's download fails. */
  lemma {:induction false} DownloadAllSucceeds(remote: Remote, files: seq<DirectoryEntry>)
    ensures DownloadAll(remote, files).Ok? <==>
              forall i :: 0 <= i < |files| ==> GetStarterWorkflowTemplate(remote, files[i]).result.Ok?
    decreases |files|
  {
    if |files| > 0 {
      DownloadAllSucceeds(remote, files[1..]);
      assert DownloadAll(remote, files) == Combine(GetStarterWorkflowTemplate(remote, files[0]).result, DownloadAll(remote, files[1..]));
      assert forall i :: 0 < i < |files| ==> files[i] == files[1..][i - 1];
    }
  }

  /** Every template downloaded comes from one listed file, and there are no more templates
      than files. */
  lemma {:induction false} DownloadAllSound(remote: Remote, files: seq<DirectoryEntry>)
    requires DownloadAll(remote, files).Ok?
    ensures |DownloadAll(remote, files).value| <= |files|
    ensures forall t :: t in DownloadAll(remote, files).value ==>
              exists i :: 0 <= i < |files| && GetStarterWorkflowTemplate(remote, files[i]).result == Ok(Some(t))
    decreases |files|
  {
    if |files| > 0 {
      DownloadAllSound(remote, files[1..]);
      forall t | t in DownloadAll(remote, files).value
        ensures exists i :: 0 <= i < |files| && GetStarterWorkflowTemplate(remote, files[i]).result == Ok(Some(t))
      {
        if t !in DownloadAll(remote, files[1..]).value {
          assert GetStarterWorkflowTemplate(remote, files[0]).result == Ok(Some(t));
        } else {
          var i :| 0 <= i < |files[1..]| && GetStarterWorkflowTemplate(remote, files[1..][i]).result == Ok(Some(t));
          assert GetStarterWorkflowTemplate(remote, files[i + 1]).result == Ok(Some(t));
        }
      }
    }
  }

  /** The requests of a listing split in two are those of its first part followed by those
      of its second part. */
  lemma {:induction false} RequestsConcat(remote: Remote, xs: seq<DirectoryEntry>, ys: seq<DirectoryEntry>)
    ensures Requests(remote, xs + ys) == Requests(remote, xs) + Requests(remote, ys)
    decreases |xs|
  {
    if |xs| > 0 {
      assert (xs + ys)[1..] == xs[1..] + ys;
      assert (xs + ys)[0] == xs[0];
      RequestsConcat(remote, xs[1..], ys);
    } else {
      assert xs + ys == ys;
    }
  }

  /** Order of the listing is kept: the templates of a listing split in two are those of
      its first part followed by those of its second part. */
  lemma {:induction false} DownloadAllConcat(remote: Remote, xs: seq<DirectoryEntry>, ys: seq<DirectoryEntry>)
    requires DownloadAll(remote, xs).Ok? && DownloadAll(remote, ys).Ok?
    ensures DownloadAll(remote, xs + ys) == Ok(DownloadAll(remote, xs).value + DownloadAll(remote, ys).value)
    decreases |xs|
  {
    if |xs| > 0 {
      assert DownloadAll(remote, xs[1..]).Ok?;
      DownloadAllConcat(remote, xs[1..], ys);
      DownloadAllConcatStep(remote, xs, ys);
    } else {
      assert xs + ys == ys;
      assert [] + DownloadAll(remote, ys).value == DownloadAll(remote, ys).value;
    }
  }

  /** The inductive step of `DownloadAllConcat`: prepending one file to the first part. */
  lemma DownloadAllConcatStep(remote: Remote, xs: seq<DirectoryEntry>, ys: seq<DirectoryEntry>)
    requires |xs| > 0 && DownloadAll(remote, xs).Ok? && DownloadAll(remote, ys).Ok?
    requires DownloadAll(remote, xs[1..]).Ok?
    requires DownloadAll(remote, xs[1..] + ys) == Ok(DownloadAll(remote, xs[1..]).value + DownloadAll(remote, ys).value)
    ensures DownloadAll(remote, xs + ys) == Ok(DownloadAll(remote, xs).value + DownloadAll(remote, ys).value)
  {
    SplitConcat(xs, ys);
    var first := GetStarterWorkflowTemplate(remote, xs[0]).result;
    assert DownloadAll(remote, xs + ys) == Combine(first, DownloadAll(remote, xs[1..] + ys));
    assert DownloadAll(remote, xs) == Combine(first, DownloadAll(remote, xs[1..]));
    CombineAppend(first, DownloadAll(remote, xs[1..]).value, DownloadAll(remote, ys).value);
  }

  /** The first element and the rest of a concatenation whose first part is not empty. */
  lemma SplitConcat<T>(xs: seq<T>, ys: seq<T>)
    requires |xs| > 0
    ensures (xs + ys)[0] == xs[0] && (xs + ys)[1..] == xs[1..] + ys
  {
  }

  /** A single file yields its template, or nothing when its properties or its YAML are
      missing or empty. */
  lemma DownloadOne(remote: Remote, file: DirectoryEntry)
    requires GetStarterWorkflowTemplate(remote, file).result.Ok?
    ensures var found := GetStarterWorkflowTemplate(remote, file).result.value;
            DownloadAll(remote, [file]) == Ok(if found.Some? then [found.value] else [])
  {
    assert [file][1..] == [];
    var found := GetStarterWorkflowTemplate(remote, file).result.value;
    var one := if found.Some? then [found.value] else [];
    assert one + [] == one;
  }

  /** The entries of a listing that are files, in order. */
  function Files(entries: seq<DirectoryEntry>): (files: seq<DirectoryEntry>)
    ensures forall f :: f in files <==> f in entries && f.kind == File
    decreases |entries|
  {
    if |entries| == 0 then []
    else
      var rest := Files(entries[..|entries| - 1]);
      var last := entries[|entries| - 1];
      assert entries == entries[..|entries| - 1] + [last];
      if last.kind == File then rest + [last] else rest
  }

  /** Filtering keeps order: the files of a listing split in two are those of its first part
      followed by those of its second part. */
  lemma {:induction false} FilesConcat(xs: seq<DirectoryEntry>, ys: seq<DirectoryEntry>)
    ensures Files(xs + ys) == Files(xs) + Files(ys)
    decreases |ys|
  {
    if |ys| == 0 {
      assert xs + ys == xs;
    } else {
      var last := ys[|ys| - 1];
      assert (xs + ys)[..|xs + ys| - 1] == xs + ys[..|ys| - 1];
      FilesConcat(xs, ys[..|ys| - 1]);
    }
  }

  /** A single entry is kept exactly when it is a file. */
  lemma FilesOne(entry: DirectoryEntry)
    ensures Files([entry]) == if entry.kind == File then [entry] else []
  {
    assert [entry][..0] == [];
  }

  /** `getStarterWorkflowTemplates`: answers from the module cache once it is set; otherwise
      lists the properties directory, downloads every file entry, and sets the cache only
      when everything has been downloaded. */
  function GetStarterWorkflowTemplates(cache: Option<seq<Template>>, remote: Remote): (c: Catalog)
    ensures cache.Some? ==> c == Catalog(Ok(cache.value), cache, [])
    ensures cache.None? ==> |c.requests| >= 1 && c.requests[0] == Fetch(PropertiesDirectory)
    ensures cache.None? ==> (c.cache.Some? <==> c.result.Ok?)
    ensures c.cache.Some? ==> c.result == Ok(c.cache.value)
    ensures cache.None? && remote.listing.Err? ==>
              c == Catalog(Err(RequestFailed(remote.listing.error)), None, [Fetch(PropertiesDirectory)])
    ensures cache.None? && remote.listing.Ok? ==>
              c.result == DownloadAll(remote, Files(remote.listing.value))
    ensures cache.None? && remote.listing.Ok? ==>
              c.requests == [Fetch(PropertiesDirectory)] + Requests(remote, Files(remote.listing.value))
  {
    match cache
    case Some(templates) => Catalog(Ok(templates), cache, [])
    case None =>
      var listRequest := Fetch(PropertiesDirectory);
      match remote.listing
      case Err(message) => Catalog(Err(RequestFailed(message)), None, [listRequest])
      case Ok(entries) =>
        var requests := [listRequest] + Requests(remote, Files(entries));
        match DownloadAll(remote, Files(entries))
        case Err(e) => Catalog(Err(e), None, requests)
        case Ok(templates) => Catalog(Ok(templates), Some(templates), requests)
  }

  /** `request` asks for the properties file `file` or for the YAML derived from it. */
  predicate RequestFor(request: Request, file: DirectoryEntry)
  {
    request == Fetch(file.path) || request == Fetch(ContentPath(file))
  }

  /** Downloading one file asks only for that file and its YAML. */
  lemma DownloadRequestFor(remote: Remote, file: DirectoryEntry, k: int)
    requires 0 <= k < |GetStarterWorkflowTemplate(remote, file).requests|
    ensures RequestFor(GetStarterWorkflowTemplate(remote, file).requests[k], file)
  {
  }

  /** Only file entries of the listing are downloaded: every request after the listing asks
      for a file entry's path or for the YAML path derived from one. */
  lemma {:induction false} OnlyFilesDownloaded(remote: Remote, files: seq<DirectoryEntry>, k: int)
    requires 0 <= k < |Requests(remote, files)|
    ensures exists i :: 0 <= i < |files| && RequestFor(Requests(remote, files)[k], files[i])
    decreases |files|
  {
    var first := GetStarterWorkflowTemplate(remote, files[0]).requests;
    var rest := Requests(remote, files[1..]);
    assert Requests(remote, files) == first + rest;
    if k < |first| {
      DownloadRequestFor(remote, files[0], k);
    } else {
      OnlyFilesDownloaded(remote, files[1..], k - |first|);
      var i :| 0 <= i < |files[1..]| && RequestFor(rest[k - |first|], files[1..][i]);
      assert RequestFor(Requests(remote, files)[k], files[i + 1]);
    }
  }

  /** Once a call has filled the cache, later calls answer from it without a request, even
      when the catalog was empty. */
  lemma FetchedOnce(first: Remote, later: Remote)
    requires GetStarterWorkflowTemplates(None, first).result.Ok?
    ensures var c := GetStarterWorkflowTemplates(None, first);
            GetStarterWorkflowTemplates(c.cache, later) == Catalog(c.result, c.cache, [])
  {
  }
}

=== FILE: templates.dfy ===
/** Creating a workflow (`src/workflow/templates.ts`): registering the starter templates once,
    choosing a provider, choosing a workspace folder, the wrapper that turns a starter
    template into a provider, and the callbacks handed to the provider.

    The module-level variables of the TypeScript code (`starterDefinitions`,
    `areStarterWorkflowsRegistered`, `workflowProviders`) are the fields of `State`, passed in
    and returned. What VS Code, the git layer and other extensions answer is given by a
    `Host` value. The template shape used here (`getContent()`, `group`, `properties.name`)
    is the one this file expects; `StarterTemplate` records what `getContent()` resolves to. */
module Templates {
  import opened Outcomes
  import opened ProviderRegistry
  import opened WorkflowPicker
  import Secrets

  /** A starter template as this file uses it; `content` is what `getContent()` resolves to. */
  datatype StarterTemplate = StarterTemplate(
    id: string, name: string, description: string, group: string, suggestedFileName: string, content: Option<string>)

  /** An entry of `getCustomWorkflows()`: a workflow type declared by an extension. */
  datatype CustomWorkflow = CustomWorkflow(workflow: string, title: string, description: string, group: string)

  /** A URI, as the list of its path segments. */
  type Uri = seq<string>

  datatype RepoContext = RepoContext(repository: Secrets.Repository, workspaceUri: Uri)

  datatype GitHubContext = GitHubContext(repos: seq<RepoContext>)

  /** The module-level variables: `starterDefinitions` (`None` while undefined),
      `areStarterWorkflowsRegistered` and `workflowProviders`. */
  datatype State = State(starterDefinitions: Option<seq<StarterTemplate>>, starterWorkflowsRegistered: bool, registry: Registry)

  const Initial := State(None, false, Empty)

  /** The registration flag is only ever set together with the definitions. */
  ghost predicate Valid(s: State)
  {
    s.starterWorkflowsRegistered ==> s.starterDefinitions.Some?
  }

  /** What the host answers:
      - `gitHub`: `getGitHubContext()`;
      - `fetchStarters`: `getStarterWorkflowTemplates` with the client of a repository, or
        the message of the error it throws;
      - `activate`: the registry once `activateExtensionForWorkflow(type)` has finished (an
        activated extension may register providers);
      - `customWorkflows`: `getCustomWorkflows()`;
      - `workflowPick`, `folderPick`: the index of the item the user picks in the workflow and
        the folder quick picks, `None` when the pick is dismissed;
      - `folders`: `vscode.workspace.workspaceFolders` (empty when undefined);
      - `contextFor`: `getGitHubContextForWorkspaceUri`. */
  datatype Host = Host(
    gitHub: Option<GitHubContext>,
    fetchStarters: RepoContext -> Result<seq<StarterTemplate>, string>,
    activate: (Registry, string) -> Registry,
    customWorkflows: seq<CustomWorkflow>,
    workflowPick: Option<nat>,
    folders: seq<Uri>,
    folderPick: Option<nat>,
    contextFor: Uri -> Option<RepoContext>)

  datatype TemplateError =
    | StarterFetchFailed(message: string)
    | StarterDefinitionsUndefined          // `.find`/`.map` on the undefined `starterDefinitions`
    | NoTemplateContent(templateId: string)
    | NoWorkflowProvider(workflowType: Option<string>)
    | NoWorkspaceFolder
    | NoGitHubContext
    | SecretFailed(error: Secrets.SecretError)

  // ---------------------------------------------------------------------------------------
  // Registering the starter templates

  /** The state after `ensureStarterWorkflowsRegistered`, and whether it fetched the
      templates. */
  datatype Ensured = Ensured(result: Result<State, TemplateError>, fetched: bool)

  /** `ensureStarterWorkflowsRegistered`: once the flag is set, nothing happens; without a
      GitHub context or without repositories, nothing changes; otherwise the templates are
      fetched with the first repository's client and the flag is set only once they are in. */
  function EnsureStarterWorkflowsRegistered(s: State, host: Host): (e: Ensured)
    ensures s.starterWorkflowsRegistered ==> e == Ensured(Ok(s), false)
    ensures e.fetched <==> !s.starterWorkflowsRegistered && host.gitHub.Some? && |host.gitHub.value.repos| > 0
    ensures !e.fetched ==> e.result == Ok(s)
    ensures e.fetched ==> var fetched := host.fetchStarters(host.gitHub.value.repos[0]);
              && (e.result.Err? <==> fetched.Err?)
              && (e.result.Err? ==> e.result.error == StarterFetchFailed(fetched.error))
              && (e.result.Ok? ==> e.result.value == State(Some(fetched.value), true, s.registry))
    ensures e.result.Ok? && e.result.value.starterWorkflowsRegistered ==> s.starterWorkflowsRegistered || e.fetched
    ensures Valid(s) && e.result.Ok? ==> Valid(e.result.value)
  {
    if s.starterWorkflowsRegistered then Ensured(Ok(s), false)
    else if host.gitHub.None? || |host.gitHub.value.repos| == 0 then Ensured(Ok(s), false)
    else
      match host.fetchStarters(host.gitHub.value.repos[0])
      case Err(message) => Ensured(Err(StarterFetchFailed(message)), true)
      case Ok(templates) => Ensured(Ok(s.(starterDefinitions := Some(templates), starterWorkflowsRegistered := true)), true)
  }

  /** After one successful registration, later calls fetch nothing and change nothing,
      whatever the host answers then. */
  lemma EnsureIdempotent(s: State, first: Host, later: Host)
    requires EnsureStarterWorkflowsRegistered(s, first).result.Ok?
    requires EnsureStarterWorkflowsRegistered(s, first).result.value.starterWorkflowsRegistered
    ensures var registered := EnsureStarterWorkflowsRegistered(s, first).result.value;
            EnsureStarterWorkflowsRegistered(registered, later) == Ensured(Ok(registered), false)
  {
  }

  // ---------------------------------------------------------------------------------------
  // Choosing a workspace folder

  /** `selectWorkspace`: no folder throws, one folder is used without asking, several
      folders mean the one the user picks or none. */
  function SelectWorkspace(folders: seq<Uri>, pick: Option<nat>): (r: Result<Option<Uri>, TemplateError>)
    ensures |folders| == 0 <==> r.Err?
    ensures r.Err? ==> r.error == NoWorkspaceFolder
    ensures |folders| == 1 ==> r == Ok(Some(folders[0]))
    ensures |folders| > 1 ==> r.Ok? && (r.value.Some? <==> pick.Some? && pick.value < |folders|)
    ensures |folders| > 1 && pick.Some? && pick.value < |folders| ==> r == Ok(Some(folders[pick.value]))
    ensures r.Ok? && r.value.Some? ==> r.value.value in folders
  {
    if |folders| == 0 then Err(NoWorkspaceFolder)
    else if |folders| == 1 then Ok(Some(folders[0]))
    else if pick.Some? && pick.value < |folders| then Ok(Some(folders[pick.value]))
    else Ok(None)
  }

  // ---------------------------------------------------------------------------------------
  // Looking up providers

  /** `getWorkflowProvider`: let a contributing extension activate, then look the type up;
      a provider is found exactly when the activated registry holds the type. */
  function GetWorkflowProvider(host: Host, r: Registry, workflowType: string): (found: (Registry, Option<Provider>))
    ensures found.0 == host.activate(r, workflowType)
    ensures found.1.Some? <==> workflowType in found.0.entries
    ensures found.1.Some? ==> found.1.value == found.0.entries[workflowType].provider
  {
    var activated := host.activate(r, workflowType);
    (activated, Lookup(activated, workflowType))
  }

  /** `starterDefinitions.find(definition => definition.id === type)`. */
  function FindStarter(definitions: seq<StarterTemplate>, id: string): (found: Option<StarterTemplate>)
    ensures found.None? <==> forall i :: 0 <= i < |definitions| ==> definitions[i].id != id
    ensures found.Some? ==> exists i :: 0 <= i < |definitions| && definitions[i] == found.value && found.value.id == id &&
                                        forall j :: 0 <= j < i ==> definitions[j].id != id
    decreases |definitions|
  {
    if |definitions| == 0 then None
    else if definitions[0].id == id then Some(definitions[0])
    else
      var found := FindStarter(definitions[1..], id);
      assert forall i :: 0 < i < |definitions| ==> definitions[i] == definitions[1..][i - 1];
      if found.Some? then
        var i :| 0 <= i < |definitions[1..]| && definitions[1..][i] == found.value && found.value.id == id &&
                 forall j :: 0 <= j < i ==> definitions[1..][j].id != id;
        assert definitions[i + 1] == found.value;
        found
      else found
  }

  // ---------------------------------------------------------------------------------------
  // The starter provider

  /** What the starter provider does with the content it settled on: hand it to the provider
      registered under the template's id, or write it under the suggested file name. */
  datatype StarterStep = DelegateTo(provider: Provider, content: string) | WriteStarter(fileName: string, content: string)

  /** The registry after running a starter provider, and the step it took or what it threw. */
  datatype StarterRun = StarterRun(registry: Registry, result: Result<StarterStep, TemplateError>)

  /** `createStarterWorkflowProvider(template).createWorkflow(context)`: the caller's content
      (`context.content`) when there is any, else the template's; missing or empty content
      throws; then the provider registered under the template id, if any, gets the content,
      and otherwise the content is written under the suggested file name. */
  function RunStarterProvider(host: Host, r: Registry, template: StarterTemplate, contextContent: Option<string>): (run: StarterRun)
    ensures var content := if contextContent.Some? then contextContent else template.content;
            && (run.result.Err? <==> content.None? || content.value == "")
            && (run.result.Err? ==> run.registry == r && run.result.error == NoTemplateContent(template.id))
            && (run.result.Ok? ==> run.registry == host.activate(r, template.id) && run.result.value.content == content.value)
    ensures run.result.Ok? ==>
              (run.result.value.DelegateTo? <==> Lookup(run.registry, template.id).Some?)
    ensures run.result.Ok? && run.result.value.DelegateTo? ==> Some(run.result.value.provider) == Lookup(run.registry, template.id)
    ensures run.result.Ok? && run.result.value.WriteStarter? ==> run.result.value.fileName == template.suggestedFileName
  {
    var content := if contextContent.Some? then contextContent else template.content;
    if content.None? || content.value == "" then StarterRun(r, Err(NoTemplateContent(template.id)))
    else
      var (activated, provider) := GetWorkflowProvider(host, r, template.id);
      match provider
      case Some(p) => StarterRun(activated, Ok(DelegateTo(p, content.value)))
      case None => StarterRun(activated, Ok(WriteStarter(template.suggestedFileName, content.value)))
  }

  /** Content supplied by the caller wins: what the template itself would fetch makes no
      difference then, even when it is missing. */
  lemma CallerContentPreferred(host: Host, r: Registry, template: StarterTemplate, fetched: Option<string>, content: string)
    ensures RunStarterProvider(host, r, template, Some(content)) ==
            RunStarterProvider(host, r, template.(content := fetched), Some(content))
  {
  }

  // ---------------------------------------------------------------------------------------
  // Choosing a provider

  /** How an entry of the quick pick obtains its provider. */
  datatype Factory = FromStarter(template: StarterTemplate) | FromContribution(workflow: string)

  /** The provider chosen: a starter template wrapped by `createStarterWorkflowProvider`, or a
      registered provider. */
  datatype Resolved = Starter(template: StarterTemplate) | FromRegistry(provider: Provider)

  /** The registry after choosing, and the provider chosen (`None` when there is none). */
  datatype Selection = Selection(registry: Registry, provider: Option<Resolved>)

  function StarterDefinitions(templates: seq<StarterTemplate>): seq<Definition<Factory>>
  {
    seq(|templates|, i requires 0 <= i < |templates| =>
      Definition(templates[i].name, templates[i].description, templates[i].group, FromStarter(templates[i])))
  }

  function ContributedDefinitions(workflows: seq<CustomWorkflow>): seq<Definition<Factory>>
  {
    seq(|workflows|, i requires 0 <= i < |workflows| =>
      Definition(workflows[i].title, workflows[i].description, workflows[i].group, FromContribution(workflows[i].workflow)))
  }

  /** The definition behind the picked quick pick item; dismissing the pick, or an index that
      is not a selectable entry, gives none. */
  function Picked(items: seq<Item<Factory>>, pick: Option<nat>): (d: Option<Definition<Factory>>)
    ensures d.Some? <==> pick.Some? && pick.value < |items| && items[pick.value].Choice?
    ensures d.Some? ==> items[pick.value] == Choice(d.value) && Choice(d.value) in items
  {
    if pick.Some? && pick.value < |items| && items[pick.value].Choice? then Some(items[pick.value].definition) else None
  }

  /** `selectWorkflowProvider`. With a type, a starter template of that id comes first, then
      whatever is registered under the type once its extension has activated. Without one,
      the user picks from the grouped starter templates and contributed workflows. */
  function SelectWorkflowProvider(s: State, host: Host, workflowType: Option<string>): (r: Result<Selection, TemplateError>)
    ensures s.starterDefinitions.None? <==> r.Err?
    ensures r.Err? ==> r.error == StarterDefinitionsUndefined
    ensures r.Ok? && Truthy(workflowType) ==>
              match FindStarter(s.starterDefinitions.value, workflowType.value)
              case Some(t) => r.value == Selection(s.registry, Some(Starter(t)))
              case None =>
                && r.value.registry == host.activate(s.registry, workflowType.value)
                && (r.value.provider.Some? <==> Lookup(r.value.registry, workflowType.value).Some?)
                && (r.value.provider.Some? ==> r.value.provider == Some(FromRegistry(Lookup(r.value.registry, workflowType.value).value)))
    ensures r.Ok? && !Truthy(workflowType) && r.value.provider.Some? && r.value.provider.value.Starter? ==>
              r.value.provider.value.template in s.starterDefinitions.value
    ensures r.Ok? && !Truthy(workflowType) ==>
              var items := QuickPickItems(StarterDefinitions(s.starterDefinitions.value) + ContributedDefinitions(host.customWorkflows));
              match Picked(items, host.workflowPick)
              case None => r.value == Selection(s.registry, None)
              case Some(d) =>
                match d.factory
                case FromStarter(t) => r.value == Selection(s.registry, Some(Starter(t)))
                case FromContribution(w) =>
                  && r.value.registry == host.activate(s.registry, w)
                  && (r.value.provider.Some? <==> w in r.value.registry.entries)
                  && (r.value.provider.Some? ==> r.value.provider == Some(FromRegistry(r.value.registry.entries[w].provider)))
  {
    if s.starterDefinitions.None? then Err(StarterDefinitionsUndefined)
    else
      var starters := s.starterDefinitions.value;
      if Truthy(workflowType) then
        match FindStarter(starters, workflowType.value)
        case Some(t) => Ok(Selection(s.registry, Some(Starter(t))))
        case None =>
          var (activated, provider) := GetWorkflowProvider(host, s.registry, workflowType.value);
          Ok(Selection(activated, if provider.Some? then Some(FromRegistry(provider.value)) else None))
      else
        var items := QuickPickItems(StarterDefinitions(starters) + ContributedDefinitions(host.customWorkflows));
        match Picked(items, host.workflowPick)
        case None => Ok(Selection(s.registry, None))
        case Some(d) =>
          match d.factory
          case FromStarter(t) =>
            PickedStarterListed(starters, host.customWorkflows, items, d);
            Ok(Selection(s.registry, Some(Starter(t))))
          case FromContribution(w) =>
            var (activated, provider) := GetWorkflowProvider(host, s.registry, w);
            Ok(Selection(activated, if provider.Some? then Some(FromRegistry(provider.value)) else None))
  }

  /** A picked starter entry wraps one of the starter definitions. */
  lemma PickedStarterListed(starters: seq<StarterTemplate>, custom: seq<CustomWorkflow>,
                            items: seq<Item<Factory>>, d: Definition<Factory>)
    requires items == QuickPickItems(StarterDefinitions(starters) + ContributedDefinitions(custom))
    requires Choice(d) in items && d.factory.FromStarter?
    ensures d.factory.template in starters
  {
    var all := StarterDefinitions(starters) + ContributedDefinitions(custom);
    var k :| 0 <= k < |items| && items[k] == Choice(d);
    ChosenHolds(items, k);
    assert d in multiset(Chosen(items));
    var n := |StarterDefinitions(starters)|;
    forall k | 0 <= k < |all|
      ensures all[k].factory.FromStarter? ==> all[k].factory.template in starters
    {
      if k < n {
        assert all[k] == StarterDefinitions(starters)[k];
      } else {
        assert all[k] == ContributedDefinitions(custom)[k - n];
      }
    }
    var i :| 0 <= i < |all| && all[i] == d;
  }

  /** A selectable item's definition is among the chosen definitions. */
  lemma {:induction false} ChosenHolds(items: seq<Item<Factory>>, k: int)
    requires 0 <= k < |items| && items[k].Choice?
    ensures items[k].definition in Chosen(items)
    decreases |items|
  {
    if k > 0 {
      ChosenHolds(items[1..], k - 1);
    }
  }

  // ---------------------------------------------------------------------------------------
  // Creating a workflow

  /** What the provider is bound to: the workspace folder, and the repository the secret
      callback uses (`None` when none could be found). */
  datatype Binding = Binding(workspaceUri: Uri, repo: Option<RepoContext>)

  /** What the chosen provider is asked to do: a registered provider runs with the callbacks;
      a starter provider takes the step `RunStarterProvider` settled on. */
  datatype Action = RunProvider(provider: Provider) | RunStarter(step: StarterStep)

  datatype Invocation = NotInvoked | Invoked(binding: Binding, action: Action)

  /** The state after `createWorkflow`, and what it did or threw. */
  datatype Creation = Creation(state: State, result: Result<Invocation, TemplateError>)

  /** `gitHubRepoContext?.workspaceUri ?? await selectWorkspace()`. */
  function Workspace(host: Host, context: Option<RepoContext>): Result<Option<Uri>, TemplateError>
  {
    if context.Some? then Ok(Some(context.value.workspaceUri)) else SelectWorkspace(host.folders, host.folderPick)
  }

  /** The folder and the repository the provider is bound to once `uri` is settled: the
      caller's context, or the one found for the folder. */
  function BindingFor(host: Host, context: Option<RepoContext>, uri: Uri): Binding
  {
    Binding(uri, if context.Some? then context else host.contextFor(uri))
  }

  /** `createWorkflow(context, type)`: register the starter templates, choose a provider (none
      throws), choose the workspace folder (the context's, or the user's; none returns
      without invoking the provider), find the repository for secrets, and invoke the
      provider. */
  function CreateWorkflow(s: State, host: Host, context: Option<RepoContext>, workflowType: Option<string>): (c: Creation)
    ensures Valid(s) ==> Valid(c.state)
    ensures c.state.starterWorkflowsRegistered ==> s.starterWorkflowsRegistered || EnsureStarterWorkflowsRegistered(s, host).fetched
    ensures c.result.Ok? && c.result.value.Invoked? && context.Some? ==>
              c.result.value.binding == Binding(context.value.workspaceUri, context)
    ensures c.result.Ok? && c.result.value.Invoked? && context.None? ==>
              var uri := c.result.value.binding.workspaceUri;
              && uri in host.folders && c.result.value.binding.repo == host.contextFor(uri)
              && SelectWorkspace(host.folders, host.folderPick) == Ok(Some(uri))
    ensures c.result == Ok(NotInvoked) ==> context.None? && |host.folders| > 1
  {
    var ensured := EnsureStarterWorkflowsRegistered(s, host);
    match ensured.result
    case Err(e) => Creation(s, Err(e))
    case Ok(registered) =>
      match SelectWorkflowProvider(registered, host, workflowType)
      case Err(e) => Creation(registered, Err(e))
      case Ok(selection) =>
        var selected := registered.(registry := selection.registry);
        if selection.provider.None? then Creation(selected, Err(NoWorkflowProvider(workflowType)))
        else
          match Workspace(host, context)
          case Err(e) => Creation(selected, Err(e))
          case Ok(None) => Creation(selected, Ok(NotInvoked))
          case Ok(Some(uri)) =>
            var binding := BindingFor(host, context, uri);
            match selection.provider.value
            case FromRegistry(p) => Creation(selected, Ok(Invoked(binding, RunProvider(p))))
            case Starter(t) =>
              var run := RunStarterProvider(host, selected.registry, t, None);
              var after := selected.(registry := run.registry);
              match run.result
              case Err(e) => Creation(after, Err(e))
              case Ok(step) => Creation(after, Ok(Invoked(binding, RunStarter(step))))
  }

  /** With an explicit type, a starter template of that id is used even when a provider is
      registered under the same type: once a folder is settled, the starter runs with its
      content, bound to that folder. */
  lemma StarterTakesPrecedence(s: State, host: Host, context: Option<RepoContext>, workflowType: string, t: StarterTemplate)
    requires workflowType != ""
    requires EnsureStarterWorkflowsRegistered(s, host).result.Ok?
    requires var registered := EnsureStarterWorkflowsRegistered(s, host).result.value;
             registered.starterDefinitions.Some? && FindStarter(registered.starterDefinitions.value, workflowType) == Some(t)
    requires t.content.Some? && t.content.value != ""
    ensures var c := CreateWorkflow(s, host, context, Some(workflowType));
            match Workspace(host, context)
            case Err(e) => c.result == Err(e)
            case Ok(None) => c.result == Ok(NotInvoked)
            case Ok(Some(uri)) =>
              && c.result.Ok? && c.result.value == Invoked(BindingFor(host, context, uri), c.result.value.action)
              && c.result.value.action.RunStarter?
              && c.result.value.action.step.content == t.content.value
    ensures var c := CreateWorkflow(s, host, context, Some(workflowType));
            && (c.result.Ok? && c.result.value.Invoked? ==> c.result.value.action.RunStarter? && c.result.value.action.step.content == t.content.value)
            && (context.Some? || |host.folders| == 1 ==> c.result.Ok? && c.result.value.Invoked?)
  {
  }

  /** An explicit type that is neither a starter template id nor registered once its
      extension has activated ends in the error "no workflow provider". */
  lemma UnknownTypeFails(s: State, host: Host, context: Option<RepoContext>, workflowType: string)
    requires workflowType != ""
    requires EnsureStarterWorkflowsRegistered(s, host).result.Ok?
    requires var registered := EnsureStarterWorkflowsRegistered(s, host).result.value;
             && registered.starterDefinitions.Some?
             && (forall t :: t in registered.starterDefinitions.value ==> t.id != workflowType)
             && workflowType !in host.activate(registered.registry, workflowType).entries
    ensures CreateWorkflow(s, host, context, Some(workflowType)).result == Err(NoWorkflowProvider(Some(workflowType)))
  {
    var registered := EnsureStarterWorkflowsRegistered(s, host).result.value;
    var starters := registered.starterDefinitions.value;
    assert FindStarter(starters, workflowType).None? by {
      forall i | 0 <= i < |starters|
        ensures starters[i].id != workflowType
      {
        assert starters[i] in starters;
      }
    }
  }

  /** An explicit type that is no starter id but is registered once its extension has
      activated runs that registered provider, bound to the folder settled on. */
  lemma RegisteredTypeRunsProvider(s: State, host: Host, context: Option<RepoContext>, workflowType: string, p: Provider)
    requires workflowType != ""
    requires EnsureStarterWorkflowsRegistered(s, host).result.Ok?
    requires var registered := EnsureStarterWorkflowsRegistered(s, host).result.value;
             && registered.starterDefinitions.Some?
             && (forall t :: t in registered.starterDefinitions.value ==> t.id != workflowType)
             && Lookup(host.activate(registered.registry, workflowType), workflowType) == Some(p)
    ensures var c := CreateWorkflow(s, host, context, Some(workflowType));
            && c.result == (match Workspace(host, context)
                            case Err(e) => Err(e)
                            case Ok(None) => Ok(NotInvoked)
                            case Ok(Some(uri)) => Ok(Invoked(BindingFor(host, context, uri), RunProvider(p))))
            && c.state.registry == host.activate(EnsureStarterWorkflowsRegistered(s, host).result.value.registry, workflowType)
    ensures var c := CreateWorkflow(s, host, context, Some(workflowType));
            && (c.result.Ok? && c.result.value.Invoked? ==> c.result.value.action == RunProvider(p))
            && (context.Some? || |host.folders| == 1 ==> c.result.Ok? && c.result.value.Invoked?)
  {
    var registered := EnsureStarterWorkflowsRegistered(s, host).result.value;
    var starters := registered.starterDefinitions.value;
    assert FindStarter(starters, workflowType).None? by {
      forall i | 0 <= i < |starters|
        ensures starters[i].id != workflowType
      {
        assert starters[i] in starters;
      }
    }
  }

  /** Without a type, a picked contributed workflow runs the provider its extension
      registers on activation, bound to the folder settled on. */
  lemma PickedContributionRunsProvider(s: State, host: Host, context: Option<RepoContext>, workflow: string, p: Provider)
    requires EnsureStarterWorkflowsRegistered(s, host).result.Ok?
    requires var registered := EnsureStarterWorkflowsRegistered(s, host).result.value;
             && registered.starterDefinitions.Some?
             && var items := QuickPickItems(StarterDefinitions(registered.starterDefinitions.value) + ContributedDefinitions(host.customWorkflows));
                && Picked(items, host.workflowPick).Some?
                && Picked(items, host.workflowPick).value.factory == FromContribution(workflow)
                && Lookup(host.activate(registered.registry, workflow), workflow) == Some(p)
    ensures CreateWorkflow(s, host, context, None).result ==
              match Workspace(host, context)
              case Err(e) => Err(e)
              case Ok(None) => Ok(NotInvoked)
              case Ok(Some(uri)) => Ok(Invoked(BindingFor(host, context, uri), RunProvider(p)))
    ensures var c := CreateWorkflow(s, host, context, None);
            && (c.result.Ok? && c.result.value.Invoked? ==> c.result.value.action == RunProvider(p))
            && (context.Some? || |host.folders| == 1 ==> c.result.Ok? && c.result.value.Invoked?)
  {
  }

  /** Dismissing the workflow quick pick is not a quiet return: without a type it ends in
      the error "no workflow provider". */
  lemma DismissedWorkflowPickFails(s: State, host: Host, context: Option<RepoContext>, workflowType: Option<string>)
    requires !Truthy(workflowType) && host.workflowPick.None?
    requires EnsureStarterWorkflowsRegistered(s, host).result.Ok?
    requires EnsureStarterWorkflowsRegistered(s, host).result.value.starterDefinitions.Some?
    ensures CreateWorkflow(s, host, context, workflowType).result == Err(NoWorkflowProvider(workflowType))
  {
  }

  /** Without a GitHub context the starter definitions stay undefined, and choosing a
      provider then throws, with or without a type. */
  lemma NoGitHubContextFails(host: Host, context: Option<RepoContext>, workflowType: Option<string>)
    requires host.gitHub.None?
    ensures CreateWorkflow(Initial, host, context, workflowType) == Creation(Initial, Err(StarterDefinitionsUndefined))
  {
  }

  /** With several folders and a dismissed folder pick, the provider is never invoked. */
  lemma DismissedFolderPickInvokesNothing(s: State, host: Host, workflowType: Option<string>)
    requires |host.folders| > 1 && host.folderPick.None?
    ensures CreateWorkflow(s, host, None, workflowType).result.Ok? ==>
              CreateWorkflow(s, host, None, workflowType).result == Ok(NotInvoked)
  {
  }

  // ---------------------------------------------------------------------------------------
  // The callbacks handed to the provider

  datatype FileEffect = CreateDirectory(uri: Uri) | WriteFile(uri: Uri, content: string)

  /** The file system calls of `createWorkflowFromContent`, and the URI it returns. */
  datatype FileCreation = FileCreation(effects: seq<FileEffect>, uri: Uri)

  function WorkflowsDirectory(workspaceUri: Uri): Uri
  {
    workspaceUri + [".github", "workflows"]
  }

  /** `createWorkflowFromContent`: create `.github/workflows` in the workspace folder, write
      the content under the suggested name there (an existing file is overwritten), and
      return that URI. */
  function CreateWorkflowFromContent(binding: Binding, suggestedFileName: string, content: string): (f: FileCreation)
    ensures |f.effects| == 2
    ensures f.effects[1] == WriteFile(f.uri, content)
    ensures f.effects[0].CreateDirectory? && f.uri == f.effects[0].uri + [suggestedFileName]
    ensures |f.uri| == |binding.workspaceUri| + 3
    ensures f.uri[..|binding.workspaceUri|] == binding.workspaceUri && f.uri[|binding.workspaceUri|..] == [".github", "workflows", suggestedFileName]
  {
    var directory := WorkflowsDirectory(binding.workspaceUri);
    var uri := directory + [suggestedFileName];
    FileCreation([CreateDirectory(directory), WriteFile(uri, content)], uri)
  }

  /** The client calls of the `setSecret` callback, and the name it returns or what it throws. */
  datatype SecretCallback = SecretCallback(calls: seq<Secrets.Call>, result: Result<string, TemplateError>)

  /** The `setSecret` callback: without a repository it throws before any call; otherwise it
      stores the secret under the suggested name and returns that name unchanged. */
  function SetSecretCallback(binding: Binding, codec: Secrets.Codec, suggestedName: string, value: string,
                             keyReply: Result<Secrets.PublicKey, string>, submitReply: Result<(), string>): (r: SecretCallback)
    ensures binding.repo.None? ==> r == SecretCallback([], Err(NoGitHubContext))
    ensures binding.repo.Some? ==>
              var stored := Secrets.SetSecret(codec, binding.repo.value.repository, suggestedName, value, keyReply, submitReply);
              && r.calls == stored.calls
              && (r.result.Ok? <==> stored.result.Ok?)
              && (r.result.Err? ==> r.result.error == SecretFailed(stored.result.error))
    ensures r.result.Ok? ==> r.result.value == suggestedName
  {
    match binding.repo
    case None => SecretCallback([], Err(NoGitHubContext))
    case Some(repo) =>
      var stored := Secrets.SetSecret(codec, repo.repository, suggestedName, value, keyReply, submitReply);
      match stored.result
      case Err(e) => SecretCallback(stored.calls, Err(SecretFailed(e)))
      case Ok(_) => SecretCallback(stored.calls, Ok(suggestedName))
  }
}

=== FILE: workflow_contributors.dfy ===
/** Which installed extensions contribute workflows (`src/workflow/workflowContributors.ts`).

    An extension contributes workflows when its `package.json` declares
    `contributes['x-workflows']`; the collection maps each such extension's id to the list it
    declares. */
module WorkflowContributors {
  import opened Outcomes

  datatype WorkflowContribution = WorkflowContribution(id: string)

  /** `contributes` of a `package.json`: `xWorkflows` is `None` when `x-workflows` is absent
      (or another falsy value). */
  datatype Contributes = Contributes(xWorkflows: Option<seq<WorkflowContribution>>)

  datatype ExtensionPackage = ExtensionPackage(contributes: Option<Contributes>)

  /** An installed extension, with its `packageJSON` (`None` when undefined). */
  datatype Extension = Extension(id: string, packageJson: Option<ExtensionPackage>)

  /** `extensionPackage?.contributes?.['x-workflows']`. */
  function DeclaredWorkflows(extension: Extension): Option<seq<WorkflowContribution>>
  {
    if extension.packageJson.Some? && extension.packageJson.value.contributes.Some?
    then extension.packageJson.value.contributes.value.xWorkflows
    else None
  }

  /** Extension `i` declares workflows and no later extension with the same id does, so its
      list is the one the fold keeps. */
  ghost predicate LastDeclaration(extensions: seq<Extension>, i: int)
    requires 0 <= i < |extensions|
  {
    && DeclaredWorkflows(extensions[i]).Some?
    && forall j :: i < j < |extensions| && extensions[j].id == extensions[i].id ==> DeclaredWorkflows(extensions[j]).None?
  }

  /** `getWorkflowContributors`: the fold over `vscode.extensions.all`, a later extension
      overwriting an earlier one under the same id; every value is the list some extension
      with that id declares. */
  function GetWorkflowContributors(extensions: seq<Extension>): (contributors: map<string, seq<WorkflowContribution>>)
    ensures forall id :: id in contributors ==>
              exists i :: 0 <= i < |extensions| && extensions[i].id == id && DeclaredWorkflows(extensions[i]) == Some(contributors[id])
    decreases |extensions|
  {
    if |extensions| == 0 then map[]
    else
      var previous := GetWorkflowContributors(extensions[..|extensions| - 1]);
      var extension := extensions[|extensions| - 1];
      assert forall i :: 0 <= i < |extensions| - 1 ==> extensions[..|extensions| - 1][i] == extensions[i];
      match DeclaredWorkflows(extension)
      case Some(workflows) => previous[extension.id := workflows]
      case None => previous
  }

  /** The keys are exactly the ids of extensions that declare `x-workflows` (an empty list
      declares too, since an empty array is truthy); no extensions give no keys. */
  lemma ContributorKeys(extensions: seq<Extension>, id: string)
    ensures id in GetWorkflowContributors(extensions) <==>
              exists i :: 0 <= i < |extensions| && extensions[i].id == id && DeclaredWorkflows(extensions[i]).Some?
  {
    if i :| 0 <= i < |extensions| && extensions[i].id == id && DeclaredWorkflows(extensions[i]).Some? {
      DeclaredIsKey(extensions, i);
    }
  }

  /** An extension that declares `x-workflows` has its id among the keys, whatever follows it. */
  lemma {:induction false} DeclaredIsKey(extensions: seq<Extension>, i: int)
    requires 0 <= i < |extensions| && DeclaredWorkflows(extensions[i]).Some?
    ensures extensions[i].id in GetWorkflowContributors(extensions)
    decreases |extensions|
  {
    var n := |extensions| - 1;
    var id := extensions[i].id;
    ContributorKeyStep(extensions, id);
    if i < n {
      var earlier := extensions[..n];
      assert earlier[i] == extensions[i];
      DeclaredIsKey(earlier, i);
      assert id in GetWorkflowContributors(earlier);
    } else {
      assert extensions[n].id == id && DeclaredWorkflows(extensions[n]).Some?;
    }
  }

  /** Each value is the list declared by the last extension with that id, unchanged. */
  lemma {:induction false} ContributorValues(extensions: seq<Extension>, i: int)
    requires 0 <= i < |extensions| && LastDeclaration(extensions, i)
    ensures extensions[i].id in GetWorkflowContributors(extensions)
    ensures GetWorkflowContributors(extensions)[extensions[i].id] == DeclaredWorkflows(extensions[i]).value
    decreases |extensions|
  {
    var n := |extensions| - 1;
    var earlier := extensions[..n];
    var previous := GetWorkflowContributors(earlier);
    assert GetWorkflowContributors(extensions) ==
      if DeclaredWorkflows(extensions[n]).Some? then previous[extensions[n].id := DeclaredWorkflows(extensions[n]).value] else previous;
    if i < n {
      assert earlier[i] == extensions[i];
      LastDeclarationEarlier(extensions, i);
      ContributorValues(earlier, i);
      assert extensions[n].id == extensions[i].id ==> DeclaredWorkflows(extensions[n]).None?;
    }
  }

  /** The last declaration of an id before the last extension is still the last one
      among the extensions before it. */
  lemma LastDeclarationEarlier(extensions: seq<Extension>, i: int)
    requires 0 <= i < |extensions| - 1 && LastDeclaration(extensions, i)
    ensures LastDeclaration(extensions[..|extensions| - 1], i)
  {
    var earlier := extensions[..|extensions| - 1];
    forall j | i < j < |earlier| && earlier[j].id == earlier[i].id
      ensures DeclaredWorkflows(earlier[j]).None?
    {
      assert earlier[j] == extensions[j];
    }
  }

  /** The last extension adds its own id, when it declares `x-workflows`, to the keys of
      the extensions before it. */
  lemma ContributorKeyStep(extensions: seq<Extension>, id: string)
    requires |extensions| > 0
    ensures var last := extensions[|extensions| - 1];
            id in GetWorkflowContributors(extensions) <==>
              id in GetWorkflowContributors(extensions[..|extensions| - 1]) || (last.id == id && DeclaredWorkflows(last).Some?)
  {
  }
}

=== FILE: workflow_picker.dfy ===
/** The quick pick `selectWorkflowProvider` shows when no workflow type is given
    (`src/workflow/templates.ts`).

    Definitions are grouped by display label: a known group id is shown under its label,
    any other group id under itself, so two ids with the same label share a group. Groups
    come in ascending label order, each as one separator followed by its definitions in
    ascending title order. The definitions carry a payload `F` (how to obtain the provider)
    that the quick pick never inspects. */
module WorkflowPicker {
  import opened Order

  /** `groupLabels`. */
  const GroupLabels: map<string, string> := map[
    "ci" := "Continuous Integration",
    "deployments" := "Deployment",
    "automation" := "Automation",
    "code-scanning" := "Code Scanning"
  ]

  /** `groupLabels[group] || group` (every known label is non-empty). */
  function GroupLabel(group: string): string
  {
    if group in GroupLabels then GroupLabels[group] else group
  }

  /** `WorkflowDefinition`: what the quick pick shows, and the payload behind it. */
  datatype Definition<F> = Definition(title: string, description: string, group: string, factory: F)

  /** A quick pick item: a separator labelled with a group, or a selectable entry showing a
      definition's title and description. */
  datatype Item<F> = Separator(heading: string) | Choice(definition: Definition<F>)

  datatype Group<F> = Group(heading: string, definitions: seq<Definition<F>>)

  function LabelOf<F>(d: Definition<F>): string
  {
    GroupLabel(d.group)
  }

  function TitleOf<F>(d: Definition<F>): string
  {
    d.title
  }

  /** The definitions shown under the label `heading`, in their original order. */
  function InGroup<F>(definitions: seq<Definition<F>>, heading: string): seq<Definition<F>>
    decreases |definitions|
  {
    if |definitions| == 0 then []
    else if LabelOf(definitions[0]) == heading then [definitions[0]] + InGroup(definitions[1..], heading)
    else InGroup(definitions[1..], heading)
  }

  function Labels<F>(definitions: seq<Definition<F>>): (headings: seq<string>)
    ensures |headings| == |definitions|
    ensures forall i :: 0 <= i < |definitions| ==> headings[i] == LabelOf(definitions[i])
  {
    seq(|definitions|, i requires 0 <= i < |definitions| => LabelOf(definitions[i]))
  }

  /** The group labels in ascending order, each once. */
  function SortedLabels<F>(definitions: seq<Definition<F>>): seq<string>
  {
    SortBy(Distinct(Labels(definitions)), Self)
  }

  /** The groups of the quick pick, in display order. */
  function Groups<F>(definitions: seq<Definition<F>>): seq<Group<F>>
  {
    var headings := SortedLabels(definitions);
    seq(|headings|, i requires 0 <= i < |headings| => Group(headings[i], SortBy(InGroup(definitions, headings[i]), TitleOf)))
  }

  function Choices<F>(definitions: seq<Definition<F>>): seq<Item<F>>
  {
    seq(|definitions|, i requires 0 <= i < |definitions| => Choice(definitions[i]))
  }

  /** One separator before each group's entries. */
  function Flatten<F>(groups: seq<Group<F>>): seq<Item<F>>
    decreases |groups|
  {
    if |groups| == 0 then []
    else [Separator(groups[0].heading)] + Choices(groups[0].definitions) + Flatten(groups[1..])
  }

  /** The items `selectWorkflowProvider` passes to `showQuickPick`: every definition exactly
      once and one separator per group, the separators carrying the group labels in
      ascending order. */
  function QuickPickItems<F>(definitions: seq<Definition<F>>): (items: seq<Item<F>>)
    ensures multiset(Chosen(items)) == multiset(definitions)
    ensures |items| == |Groups(definitions)| + |definitions|
    ensures Separators(items) == SortedLabels(definitions)
  {
    var groups := Groups(definitions);
    FlattenShape(groups);
    GroupsPartition(definitions);
    var all := AllDefinitions(groups);
    assert |all| == |multiset(all)| == |multiset(definitions)| == |definitions|;
    assert GroupLabelsOf(groups) == SortedLabels(definitions);
    Flatten(groups)
  }

  /** The definitions behind the selectable items, in order. */
  function Chosen<F>(items: seq<Item<F>>): seq<Definition<F>>
    decreases |items|
  {
    if |items| == 0 then []
    else (if items[0].Choice? then [items[0].definition] else []) + Chosen(items[1..])
  }

  /** The separator labels, in order. */
  function Separators<F>(items: seq<Item<F>>): seq<string>
    decreases |items|
  {
    if |items| == 0 then []
    else (if items[0].Separator? then [items[0].heading] else []) + Separators(items[1..])
  }

  function AllDefinitions<F>(groups: seq<Group<F>>): seq<Definition<F>>
    decreases |groups|
  {
    if |groups| == 0 then [] else groups[0].definitions + AllDefinitions(groups[1..])
  }

  function GroupLabelsOf<F>(groups: seq<Group<F>>): seq<string>
  {
    seq(|groups|, i requires 0 <= i < |groups| => groups[i].heading)
  }

  // ---------------------------------------------------------------------------------------
  // Filtering by label

  lemma {:induction false} InGroupCount<F>(definitions: seq<Definition<F>>, heading: string, d: Definition<F>)
    ensures multiset(InGroup(definitions, heading))[d] == if LabelOf(d) == heading then multiset(definitions)[d] else 0
    decreases |definitions|
  {
    if |definitions| > 0 {
      InGroupCount(definitions[1..], heading, d);
      assert definitions == [definitions[0]] + definitions[1..];
    }
  }

  lemma {:induction false} InGroupMembers<F>(definitions: seq<Definition<F>>, heading: string)
    ensures forall d :: d in InGroup(definitions, heading) <==> d in definitions && LabelOf(d) == heading
    decreases |definitions|
  {
    if |definitions| > 0 {
      InGroupMembers(definitions[1..], heading);
      assert definitions == [definitions[0]] + definitions[1..];
    }
  }

  // ---------------------------------------------------------------------------------------
  // The groups

  /** The groups come in strictly ascending label order. */
  lemma GroupsAscending<F>(definitions: seq<Definition<F>>, i: int, j: int)
    requires 0 <= i < j < |Groups(definitions)|
    ensures Le(Groups(definitions)[i].heading, Groups(definitions)[j].heading)
    ensures Groups(definitions)[i].heading != Groups(definitions)[j].heading
  {
    SortBySorted(Distinct(Labels(definitions)), Self);
    StrictlyAscending(SortedLabels(definitions), i, j);
  }

  /** There is one group for each label some definition has, and no other. */
  lemma GroupsCoverLabels<F>(definitions: seq<Definition<F>>, heading: string)
    ensures heading in GroupLabelsOf(Groups(definitions)) <==> heading in Labels(definitions)
  {
    var headings := SortedLabels(definitions);
    assert GroupLabelsOf(Groups(definitions)) == headings;
    assert heading in headings <==> heading in multiset(headings);
    assert heading in Distinct(Labels(definitions)) <==> heading in multiset(Distinct(Labels(definitions)));
  }

  /** Each group lists its definitions in ascending title order. */
  lemma GroupSorted<F>(definitions: seq<Definition<F>>, i: int)
    requires 0 <= i < |Groups(definitions)|
    ensures SortedBy(Groups(definitions)[i].definitions, TitleOf)
  {
    SortBySorted(InGroup(definitions, SortedLabels(definitions)[i]), TitleOf);
  }

  /** A group holds exactly the definitions with its label. */
  lemma GroupMembers<F>(definitions: seq<Definition<F>>, i: int, d: Definition<F>)
    requires 0 <= i < |Groups(definitions)|
    ensures d in Groups(definitions)[i].definitions <==> d in definitions && LabelOf(d) == Groups(definitions)[i].heading
  {
    var g := Groups(definitions)[i];
    InGroupMembers(definitions, g.heading);
    assert d in g.definitions <==> d in multiset(g.definitions);
    assert d in InGroup(definitions, g.heading) <==> d in multiset(InGroup(definitions, g.heading));
  }

  /** Every definition lands in exactly one group, the one of its label; definitions whose
      group ids differ but whose labels agree share that group. */
  lemma ExactlyOneGroup<F>(definitions: seq<Definition<F>>, d: Definition<F>)
    requires d in definitions
    ensures var groups := Groups(definitions);
            exists i :: 0 <= i < |groups| && groups[i].heading == LabelOf(d) && d in groups[i].definitions &&
                        forall j :: 0 <= j < |groups| && d in groups[j].definitions ==> j == i
  {
    var groups := Groups(definitions);
    var k :| 0 <= k < |definitions| && definitions[k] == d;
    assert Labels(definitions)[k] == LabelOf(d);
    GroupsCoverLabels(definitions, LabelOf(d));
    var i :| 0 <= i < |groups| && GroupLabelsOf(groups)[i] == LabelOf(d);
    GroupMembers(definitions, i, d);
    forall j | 0 <= j < |groups| && d in groups[j].definitions
      ensures j == i
    {
      GroupMembers(definitions, j, d);
      if j < i {
        GroupsAscending(definitions, j, i);
      } else if i < j {
        GroupsAscending(definitions, i, j);
      }
    }
  }

  /** Definitions whose labels agree share one group: a definition in group `ci` and one in
      group `Continuous Integration` are listed under the same separator. */
  lemma SameLabelSharesGroup<F>(definitions: seq<Definition<F>>, a: Definition<F>, b: Definition<F>)
    requires a in definitions && b in definitions
    requires LabelOf(a) == LabelOf(b)
    ensures var groups := Groups(definitions);
            exists i :: 0 <= i < |groups| && a in groups[i].definitions && b in groups[i].definitions
  {
    var groups := Groups(definitions);
    ExactlyOneGroup(definitions, a);
    var i :| 0 <= i < |groups| && groups[i].heading == LabelOf(a) && a in groups[i].definitions;
    GroupMembers(definitions, i, b);
  }

  /** The known group ids map to their labels, and `ci` and its label name the same group;
      `security`, an unknown id, is its own label. */
  lemma KnownGroupLabels()
    ensures GroupLabel("ci") == GroupLabel("Continuous Integration") == "Continuous Integration"
    ensures GroupLabel("deployments") == "Deployment" && GroupLabel("code-scanning") == "Code Scanning"
    ensures GroupLabel("automation") == "Automation" && GroupLabel("security") == "security"
  {
  }

  // ---------------------------------------------------------------------------------------
  // The rendered list

  lemma {:induction false} ChosenConcat<F>(xs: seq<Item<F>>, ys: seq<Item<F>>)
    ensures Chosen(xs + ys) == Chosen(xs) + Chosen(ys)
    decreases |xs|
  {
    if |xs| == 0 {
      assert xs + ys == ys;
    } else {
      ChosenConcat(xs[1..], ys);
      assert (xs + ys)[1..] == xs[1..] + ys;
      assert (xs + ys)[0] == xs[0];
    }
  }

  lemma {:induction false} SeparatorsConcat<F>(xs: seq<Item<F>>, ys: seq<Item<F>>)
    ensures Separators(xs + ys) == Separators(xs) + Separators(ys)
    decreases |xs|
  {
    if |xs| == 0 {
      assert xs + ys == ys;
    } else {
      SeparatorsConcat(xs[1..], ys);
      assert (xs + ys)[1..] == xs[1..] + ys;
      assert (xs + ys)[0] == xs[0];
    }
  }

  lemma {:induction false} ChoicesShape<F>(definitions: seq<Definition<F>>)
    ensures Chosen(Choices(definitions)) == definitions
    ensures Separators(Choices(definitions)) == []
    decreases |definitions|
  {
    if |definitions| > 0 {
      ChoicesShape(definitions[1..]);
      assert Choices(definitions)[1..] == Choices(definitions[1..]);
    }
  }

  /** Flattening puts one separator per group, in group order, around the groups' entries. */
  lemma FlattenShape<F>(groups: seq<Group<F>>)
    ensures Chosen(Flatten(groups)) == AllDefinitions(groups)
    ensures Separators(Flatten(groups)) == GroupLabelsOf(groups)
    ensures |Flatten(groups)| == |groups| + |AllDefinitions(groups)|
  {
    FlattenChosen(groups);
    FlattenSeparators(groups);
    FlattenLength(groups);
  }

  lemma {:induction false} FlattenChosen<F>(groups: seq<Group<F>>)
    ensures Chosen(Flatten(groups)) == AllDefinitions(groups)
    decreases |groups|
  {
    if |groups| > 0 {
      FlattenChosen(groups[1..]);
      var separator := [Separator(groups[0].heading)];
      var entries := Choices(groups[0].definitions);
      assert Flatten(groups) == separator + entries + Flatten(groups[1..]);
      ChoicesShape(groups[0].definitions);
      ChosenConcat(separator, entries);
      ChosenConcat(separator + entries, Flatten(groups[1..]));
      assert Chosen(separator) == [];
      assert [] + groups[0].definitions == groups[0].definitions;
      assert Chosen(separator + entries) == groups[0].definitions;
    }
  }

  lemma {:induction false} FlattenSeparators<F>(groups: seq<Group<F>>)
    ensures Separators(Flatten(groups)) == GroupLabelsOf(groups)
    decreases |groups|
  {
    if |groups| > 0 {
      FlattenSeparators(groups[1..]);
      var separator := [Separator(groups[0].heading)];
      var entries := Choices(groups[0].definitions);
      assert Flatten(groups) == separator + entries + Flatten(groups[1..]);
      ChoicesShape(groups[0].definitions);
      SeparatorsConcat(separator, entries);
      SeparatorsConcat(separator + entries, Flatten(groups[1..]));
      assert Separators(separator) == [groups[0].heading];
      assert GroupLabelsOf(groups) == [groups[0].heading] + GroupLabelsOf(groups[1..]);
    }
  }

  lemma {:induction false} FlattenLength<F>(groups: seq<Group<F>>)
    ensures |Flatten(groups)| == |groups| + |AllDefinitions(groups)|
    decreases |groups|
  {
    if |groups| > 0 {
      FlattenLength(groups[1..]);
    }
  }

  /** Concatenating groups that hold exactly the definitions of distinct labels counts each
      definition once if its label is among them, and not at all otherwise. */
  lemma {:induction false} AllDefinitionsCount<F>(definitions: seq<Definition<F>>, groups: seq<Group<F>>, d: Definition<F>)
    requires forall i, j :: 0 <= i < j < |groups| ==> groups[i].heading != groups[j].heading
    requires forall i :: 0 <= i < |groups| ==> multiset(groups[i].definitions) == multiset(InGroup(definitions, groups[i].heading))
    ensures multiset(AllDefinitions(groups))[d] == if LabelOf(d) in GroupLabelsOf(groups) then multiset(definitions)[d] else 0
    decreases |groups|
  {
    if |groups| > 0 {
      AllDefinitionsCount(definitions, groups[1..], d);
      InGroupCount(definitions, groups[0].heading, d);
      assert GroupLabelsOf(groups) == [groups[0].heading] + GroupLabelsOf(groups[1..]);
      assert groups[0].heading !in GroupLabelsOf(groups[1..]);
    }
  }

  /** Each group holds a permutation of the definitions with its label. */
  lemma GroupCounts<F>(definitions: seq<Definition<F>>)
    ensures var groups := Groups(definitions);
            forall i :: 0 <= i < |groups| ==> multiset(groups[i].definitions) == multiset(InGroup(definitions, groups[i].heading))
  {
  }

  lemma PartitionCount<F>(definitions: seq<Definition<F>>, d: Definition<F>)
    ensures multiset(AllDefinitions(Groups(definitions)))[d] == multiset(definitions)[d]
  {
    var groups := Groups(definitions);
    forall i, j | 0 <= i < j < |groups|
      ensures groups[i].heading != groups[j].heading
    {
      GroupsAscending(definitions, i, j);
    }
    GroupCounts(definitions);
    AllDefinitionsCount(definitions, groups, d);
    if d in definitions {
      var k :| 0 <= k < |definitions| && definitions[k] == d;
      assert Labels(definitions)[k] == LabelOf(d);
      GroupsCoverLabels(definitions, LabelOf(d));
    }
  }

  /** Between them the groups hold every definition exactly once. */
  lemma GroupsPartition<F>(definitions: seq<Definition<F>>)
    ensures multiset(AllDefinitions(Groups(definitions))) == multiset(definitions)
  {
    forall d
      ensures multiset(AllDefinitions(Groups(definitions)))[d] == multiset(definitions)[d]
    {
      PartitionCount(definitions, d);
    }
    MultisetExt(AllDefinitions(Groups(definitions)), definitions);
  }

  /** Multisets with equal multiplicities are equal. */
  lemma MultisetExt<F>(a: seq<Definition<F>>, b: seq<Definition<F>>)
    requires forall d :: multiset(a)[d] == multiset(b)[d]
    ensures multiset(a) == multiset(b)
  {
  }

  /** Where group `g` starts in the flattened list: after the separator and the entries of
      every earlier group. */
  function Offset<F>(groups: seq<Group<F>>, g: int): int
    requires 0 <= g <= |groups|
  {
    g + |AllDefinitions(groups[..g])|
  }

  /** Each group is one separator, labelled with the group's label, immediately followed by
      the group's entries. */
  lemma {:induction false} FlattenLayout<F>(groups: seq<Group<F>>, g: int)
    requires 0 <= g < |groups|
    ensures var o := Offset(groups, g);
            && o + 1 + |groups[g].definitions| <= |Flatten(groups)|
            && Flatten(groups)[o] == Separator(groups[g].heading)
            && Flatten(groups)[o + 1..o + 1 + |groups[g].definitions|] == Choices(groups[g].definitions)
    decreases g
  {
    var head := [Separator(groups[0].heading)] + Choices(groups[0].definitions);
    var rest := Flatten(groups[1..]);
    assert Flatten(groups) == head + rest;
    if g == 0 {
      assert groups[..0] == [];
      assert Flatten(groups)[1..1 + |groups[0].definitions|] == head[1..];
    } else {
      FlattenLayout(groups[1..], g - 1);
      assert groups[..g] == [groups[0]] + groups[1..][..g - 1];
      assert AllDefinitions(groups[..g]) == groups[0].definitions + AllDefinitions(groups[1..][..g - 1]);
      assert Offset(groups, g) == |head| + Offset(groups[1..], g - 1);
      var o := Offset(groups[1..], g - 1);
      var n := |groups[g].definitions|;
      assert groups[1..][g - 1] == groups[g];
      assert Flatten(groups)[|head| + o] == rest[o];
      SliceOfSuffix(head, rest, |head| + o + 1, |head| + o + 1 + n);
    }
  }

  /** A slice lying in the second part of a concatenation is a slice of that part. */
  lemma SliceOfSuffix<T>(a: seq<T>, b: seq<T>, i: int, j: int)
    requires |a| <= i <= j <= |a| + |b|
    ensures (a + b)[i..j] == b[i - |a|..j - |a|]
  {
  }

  /** The quick pick lists the groups in ascending label order, each as its separator
      immediately followed by the definitions with that label in ascending title order. */
  lemma QuickPickItemsLayout<F>(definitions: seq<Definition<F>>, g: int)
    requires 0 <= g < |SortedLabels(definitions)|
    ensures var group := Groups(definitions)[g];
            var o := Offset(Groups(definitions), g);
            && group.heading == SortedLabels(definitions)[g]
            && group.definitions == SortBy(InGroup(definitions, group.heading), TitleOf)
            && o + 1 + |group.definitions| <= |QuickPickItems(definitions)|
            && QuickPickItems(definitions)[o] == Separator(group.heading)
            && QuickPickItems(definitions)[o + 1..o + 1 + |group.definitions|] == Choices(group.definitions)
            && SortedBy(group.definitions, TitleOf)
            && (forall d :: d in group.definitions <==> d in definitions && LabelOf(d) == group.heading)
  {
    ItemsFlatten(definitions);
    FlattenLayout(Groups(definitions), g);
    GroupEntries(definitions, g);
  }

  lemma ItemsFlatten<F>(definitions: seq<Definition<F>>)
    ensures QuickPickItems(definitions) == Flatten(Groups(definitions))
  {
  }

  /** The entries of group `g` are sorted by title and are exactly the definitions with its
      label. */
  lemma GroupEntries<F>(definitions: seq<Definition<F>>, g: int)
    requires 0 <= g < |SortedLabels(definitions)|
    ensures var heading := SortedLabels(definitions)[g];
            var entries := SortBy(InGroup(definitions, heading), TitleOf);
            && Groups(definitions)[g] == Group(heading, entries)
            && SortedBy(entries, TitleOf)
            && (forall d :: d in entries <==> d in definitions && LabelOf(d) == heading)
  {
    var groups := Groups(definitions);
    GroupSorted(definitions, g);
    forall d
      ensures d in groups[g].definitions <==> d in definitions && LabelOf(d) == groups[g].heading
    {
      GroupMembers(definitions, g, d);
    }
  }
}
